=== FILE: README.md ===
# pawn-natives marshalling core in Dafny

This project models the layer of pawn-natives that sits between the Pawn
(AMX) virtual machine and typed C++ host functions.

The VM calls a native with a stack slice of 32-bit cells. Word 0 holds the
byte count of the arguments and words 1..N hold the arguments. The library
turns that slice into typed values and calls the host function's `Do` with
them. When `Do` returns or throws, the library writes output buffers back into VM
memory. The model covers these modules:

- `Amx` (amx.dfy): cells, stack slices and the VM primitives.
  - The primitives are `amx_GetAddr`, `amx_StrLen`, `amx_GetString` and `amx_SetString`.
  - They are given an abstract but fixed meaning: an address map plus a data-segment base.
  - The module also holds the C allocator, modelled as an oracle `Heap`, and the exceptions that cross the layer.
- `VarArgs` (varargs.dfy): `varargs_s`, the captured variadic tail of a call.
- `Host` (host.dfy): the arguments `Do` receives, and how it finishes. It returns, with the contents it leaves in output buffers, or it throws.
- `Casts` (casts.dfy): the footprint-aware `ParamCast` specialisations of the `pawn_natives` namespace.
  - Covered: value, const value, pointer, output `std::string *`, input `std::string const &`, injected `DI<T>` and positional `ARG<T, N>`.
  - Each has its `Size` (footprint), constructor, write-back and conversion.
- `Folder` (folder.dfy): `ParamData::Sum` and the cursor of `ParamArray::Call`.
  - It also covers the call of `Do` with the casts in declared order, and the write-backs when the casts are destroyed.
- `LegacyCasts` (legacy.dfy): the fixed-slot casts of the `plugin_natives` namespace, including the raw `char *` / `char const *` string casts and their heap buffers.
- `Adapter` (adapter.dfy): `NativeFuncBase` and the arity templates. This covers:
  - self-registration in the process-wide list;
  - the guarded `CallDoOuter`: null check, count check, exception mapping and clearing of the bound call;
  - `CallDoInner`, which builds the casts at the fixed indices 1..N;
  - the direct `operator()`;
  - the exported `NATIVE_DEFN` wrapper.
- `Hooks` (hook.dfy): the hook call operator with its re-entrancy branch, and `ScopedCall`. A `ScopedCall` removes the hook for its lifetime, reinstalls it in its destructor, and its move constructor transfers that duty.
- `Loader` (loader.dfy): `AmxLoad`. It registers one native per `amx_Register` call and installs the hooks once per process.

The hooks' `CallDoInner` (NativeHookImpl.hpp:90-143 and 235-287) is the same code as the arity templates' `CallDoInner`, and so is `NativeFunc0`'s with no parameters (NativeFunc.hpp:130-159), so `Adapter.CallDoInner` models all of them.

The comment on `ParamCastFailure` (Internal/NativeCast.hpp:23-24) calls it an expected failure. Yet `ParamCastFailure` derives from `std::invalid_argument`, so `CallDoOuter` logs it and returns 0 like any other standard exception (NativeFunc.hpp:59-65). The model follows the code (`Adapter.CastFailureIsLogged`).

## Model

| member | source | states |
|---|---|---|
| VarArgs.Reserve | NativeFuncGen.hpp:27-36 | The count-only constructor stores the count it is given, reads no stack, and throws `bad_alloc` exactly when the pointer buffer of `num * 4` bytes (32-bit arithmetic) cannot be allocated. |
| VarArgs.Capture | NativeFuncGen.hpp:38-51 | Count is `params[0] / 4 - idx + 1`, the number of argument words from `idx` on. Slot i holds the translated address of `params[idx + i]`. `bad_alloc` is thrown exactly when the buffer cannot be allocated. |
| VarArgs.CaptureIsFilledReserve | NativeFuncGen.hpp:27-51 | The capturing constructor fails exactly when `varargs_s(num)` for its word count does, with the same exception. It has the same count, and fills every slot that one leaves empty. |
| VarArgs.CaptureLoop | NativeFuncGen.hpp:38-51 | The `i != Count` loop fills every slot with the translated address of `params[idx + i]`. It meets the same contract as the functional capture, so the two agree. |
| Casts.ConstructDirect | Internal/NativeCast.hpp:72-282 | A value or const-value cast holds exactly the bits of `params[idx]`. A pointer or const-pointer cast holds the translated address of `params[idx]`. |
| Casts.ConstructVarArgs | Internal/NativeCast.hpp:132-188 | A varargs cast succeeds exactly when the capture does, and holds that capture. Its only failure is `bad_alloc`. |
| Casts.ConstructOutString | Internal/NativeCast.hpp:312-351 | The output string takes its capacity from `params[idx + 1]`. It fails exactly when that capacity is negative, and the failure is `length_error`. Capacity 0 gives an empty string with no address. A positive capacity gives the VM string at the translated address, cut to that capacity. |
| Casts.ConstructInString | Internal/NativeCast.hpp:365-400 | The input string is the whole VM string at the translated address, and it never fails. |
| Casts.Construct | Internal/NativeCast.hpp:496-657 | An injected cast reads nothing from the slice, and `ARG<T, N>` is the wrapped one-cell cast at index N + 1. Across all shapes, the only failures are a negative output capacity and an unobtainable varargs buffer, and only an output string can write back. |
| Casts.NonOutputsWriteNothing | Internal/NativeCast.hpp:81-89 | The destructors of value, pointer, varargs, input-string and injected casts leave VM memory exactly as it was. |
| Casts.OutStringRoundTrip | Internal/NativeCast.hpp:327-344 | An output string `Do` does not touch is stored back at the address read at construction, within the same capacity. The VM string ends up cut to the capacity, and a string that already fitted leaves all of VM memory unchanged. |
| Casts.InStringIgnoresNextCell | Internal/NativeCast.hpp:368-389 | The input string's length comes from the VM string, not from the adjacent cell: changing `params[idx + 1]` changes nothing. |
| Casts.PositionalIgnoresCursor | Internal/NativeCast.hpp:551-569 | A positional cast gives the same result wherever the cursor stands. That result equals the plain cast at index N + 1. |
| Folder.FootprintAppend | Internal/NativeCast.hpp:436-458 | `Sum` is additive over list concatenation, and the empty list sums to 0. |
| Folder.Positions | Internal/NativeCast.hpp:411-418 | Cast k is constructed at the start cursor plus the footprints of all casts before it. |
| Folder.PositionsTail | Internal/NativeCast.hpp:414-418 | One recursion step: the first cast is built at `prev`, and the remaining list is folded from `prev + Size`. |
| Folder.FinalCursorIsFootprint | Internal/NativeCast.hpp:414-442 | The cursor that reaches `ParamArray<0>` is exactly `Sum()` cells past the start. |
| Folder.CursorAdvancesBySize | Internal/NativeCast.hpp:414-448 | The first cast is built at index 1 when called from `ParamData::Call`. Each later cast is built at the previous cursor plus the previous cast's `Size`. |
| Folder.ZeroFootprintShiftsNothing | Internal/NativeCast.hpp:496-569 | Inserting a `DI` or `ARG` parameter (footprint 0) anywhere leaves every other cast's index unchanged. |
| Folder.FootprintCoversReads | Internal/NativeCast.hpp:436-448 | A well-formed slice with `Sum()` argument words is enough for every cast read at the cursor: value, pointer, varargs, both strings and `DI`. Only `ARG<T, N>` is excluded, since it reads cell N + 1 wherever the cursor stands. |
| Folder.Build | Internal/NativeCast.hpp:411-418 | Casts are built left to right at their cursor positions. The first exception stops the building and is exactly the exception of the cast that raised it. |
| Folder.ToArgs | Internal/NativeCast.hpp:496-534 | Converting the casts yields one argument per cast, in order, and each `DI<T>` gets the handle of its own type `T`. Conversion fails exactly when the lookup of some injected parameter's type fails, and the exception is that of the first such parameter. |
| Folder.UnwindWithoutWriters | Internal/NativeCast.hpp:339-344 | Destroying casts none of which is a positive-capacity output string changes no VM memory. |
| Folder.UnwindSingleWriter | Internal/NativeCast.hpp:339-344 | When only one cast writes back, destroying all of them in reverse order is that one write-back. |
| Folder.Dispatch | Internal/NativeCast.hpp:422-448 | `Do` runs exactly when every cast was built and converted. A cast constructor's exception, or else the first failed dependency lookup, is then the call's exception. `Do`'s return is passed through, and an exception from `Do` is the exception of the call. Every cast is destroyed once, in reverse order, holding what `Do` left in it, whether `Do` returned or threw. |
| Folder.EachDependencyLookedUp | Internal/NativeCast.hpp:496-534 | Two `DI` parameters of different types receive different handles. When only the second type is missing, its exception is the call's and `Do` does not run. |
| Folder.DispatchArgsInOrder | Internal/NativeCast.hpp:414-429 | `Do` receives one argument per declared parameter, in declared order, each from the cast constructed at that parameter's cursor. |
| Folder.NoOutputsLeaveMemory | Internal/NativeCast.hpp:411-448 | A parameter list without an output string leaves VM memory untouched, on every path: success, a cast failure, or an exception from `Do`. |
| Folder.OutputReflectsEdit | Internal/NativeCast.hpp:339-344 | With one output string of positive capacity, once `Do` has run, whether it returned or threw, the VM buffer holds what `Do` left in it, cut to the declared capacity. A buffer `Do` did not touch keeps its old contents, cut the same way. |
| Folder.DispatchAsWritten | Internal/NativeCast.hpp:414-418 | The source's folder returns the same result and gives `Do` the same arguments as the intended one. It differs only in VM memory: the outer frames' copies are destroyed after the innermost frame's casts, on every path. |
| Folder.StaleCopyOverwritesOutput | Internal/NativeCast.hpp:414-418 | Concrete case: an output string followed by a value. As written, the VM keeps "abc" although `Do` wrote "hi"; the intended folder stores "hi". |
| Folder.LastOutputIsNotStale | Internal/NativeCast.hpp:414-418 | The outer frames only hold copies of parameters before the last one. So when no earlier parameter is an output string, the source's folder gives exactly the intended folder's reply, memory included. |
| Folder.ThrowKeepsOutputWrite | Internal/NativeCast.hpp:339-344 | Concrete case: a value followed by an output string, and `Do` writes "hi" and then throws. The exception is the call's, and the destroyed output cast stores "hi" in both folders. |
| LegacyCasts.Construct | NativeCast.hpp:8-173 | Value and const-value casts reinterpret the bits of `params[idx]`. Pointer and const-pointer casts hold the translated address. A varargs cast succeeds exactly when the capture does. Failures are only `length_error` from a `char *` or `bad_alloc`. A `char *` is built by the as-written constructor or by the corrected one, as the variant argument selects. |
| LegacyCasts.ConstructCharOutAsWritten | NativeCast.hpp:176-200 | The `char *` capacity comes from `params[idx + 1]`. A negative capacity throws `length_error`. A positive capacity allocates `len` bytes (or throws `bad_alloc`), and the block keeps whatever it held, because the VM read at line 198 is commented out. Capacity 0 uses `fake_` and no address. |
| LegacyCasts.UnreadBufferWritesJunk | NativeCast.hpp:193-208 | A positive-capacity `char *` buffer that `Do` leaves alone is stored back as the fresh block's leftovers, cut to the capacity, whatever the VM string was before. |
| LegacyCasts.ConstructCharOut | NativeCast.hpp:176-230 | Corrected `char *` constructor. It fails exactly when the as-written one does, with the same exception: `length_error` for a negative capacity, `bad_alloc` for a refused block. Capacity 0 uses `fake_` and no address. A positive capacity holds the VM string at the translated address, cut to the capacity, as the newer `std::string *` cast reads it (Internal/NativeCast.hpp:329-332). |
| LegacyCasts.CharOutRoundTrip | NativeCast.hpp:193-208 | With the VM string read in, a buffer `Do` leaves alone is stored back cut to its capacity, and a string that already fitted leaves all of VM memory unchanged. |
| LegacyCasts.ConstructCharIn | NativeCast.hpp:232-278 | The `char const *` length comes from `amx_StrLen`. A non-empty string is copied whole into a `len + 1` block (or `bad_alloc` is thrown). An empty one uses `fake_`. |
| LegacyCasts.CharOutSharesLengthCell | NativeCast.hpp:186-189 | At fixed index k, the `char *` capacity is the very cell that a value parameter at index k + 1 reads. |
| LegacyCasts.DestroyAsWritten | NativeCast.hpp:204-210 | The destructors as written write a positive-capacity `char *` buffer back, and call `free` for both string casts unconditionally. |
| LegacyCasts.EmptyStringFreesMember | NativeCast.hpp:199-262 | An empty `char *` or `char const *` constructs successfully, and then the destructor as written frees `&fake_`, which `malloc` never returned. |
| LegacyCasts.Destroy | NativeCast.hpp:204-262 | The corrected destructors do the same write-back and never free a pointer that did not come from `malloc`. |
| LegacyCasts.DestroyFreesWhatWasAllocated | NativeCast.hpp:193-262 | For every constructed string cast, the corrected destructor frees iff construction allocated: a positive capacity, or a non-empty input string. |
| Adapter.CheckedSliceIsReadable | NativeFunc.hpp:55-57 | Once the count check passes on a well-formed slice, every fixed-index cast of a declarable parameter list reads only cells that exist. |
| Adapter.BuildFixed | Internal/NativeFuncImpl.hpp:17-66 | Parameter k is built at index k + 1 whatever the footprints of the parameters before it. Building stops at the first exception. |
| Adapter.CallDoInner | Internal/NativeFuncImpl.hpp:17-141 | Casts are built at indices 1..N before `Do` runs. `Do` runs exactly when all of them were built, with one argument per parameter in order. A `void` result gives 1 and any other result is returned as its cell. An exception from a cast or from `Do` is the call's exception. A variant argument selects the source's `char *` constructor or the corrected one. |
| Adapter.UnwindWithoutWriters | NativeCast.hpp:204-208 | Destroying locals none of which is a positive-capacity `char *` changes no VM memory. |
| Adapter.UnwindSingleWriter | NativeCast.hpp:204-208 | When only one local writes back, destroying all of them in reverse order is that one write-back. |
| Adapter.NoBuffersLeaveMemory | Internal/NativeFuncImpl.hpp:17-141 | Without a `char *` parameter, VM memory is unchanged on every path: a cast failure, a return from `Do`, or an exception from `Do`. |
| Adapter.BufferReflectsEdit | Internal/NativeFuncImpl.hpp:17-141 | With one `char *` of positive capacity, once `Do` has run, whether it returned or threw, the VM buffer holds what `Do` left in it, cut to the capacity. An untouched buffer is stored back as it was built. With the source's constructor, that is the fresh block's leftovers, whatever the VM held. With the corrected one, it is the old VM string, cut the same way. |
| Adapter.UntouchedBufferAsWritten | Internal/NativeFuncImpl.hpp:17-141 | Concrete case: a `char *` of capacity 8 over "abc", a fresh block holding "xyz", and a `Do` that returns without writing. The source's adapter returns 1 and leaves "xyz" at the address. The corrected one leaves "abc". |
| Adapter.ZeroArityReadsNothing | NativeFunc.hpp:116-162 | With zero parameters, the result does not depend on the slice at all: `Do` gets no arguments, and a `void` `Do` gives 1. |
| Adapter.Create | NativeFunc.hpp:25-37 | `count_` is the arity times 4, no call is bound, and the adapter is appended to the process-wide list, which is created on first use. |
| Adapter.ListInConstructionOrder | NativeFunc.hpp:33-36 | After any sequence of constructions, the list holds the adapters in construction order after whatever it held before. |
| Adapter.CallDoOuter | NativeFunc.hpp:44-80 | A null VM or stack returns 0 without running anything. Otherwise the inner call runs exactly when `count_ <= (unsigned)params[0]`, and the bound call is always cleared. A failed count check, or any standard exception, gives one log line and 0. A non-standard exception is logged once and rethrown. |
| Adapter.GuardedCallLeavesMemory | NativeFunc.hpp:44-80 | Through the guarded entry point, an adapter without a `char *` never changes VM memory, whether it is rejected, returns or throws. |
| Adapter.CountCheckBoundary | NativeFunc.hpp:55-57 | A slice one word short of the arity is rejected with one log line and 0. A slice with exactly the arity's words reaches `CallDoInner`. |
| Adapter.CastFailureIsLogged | NativeFunc.hpp:59-65 | A `ParamCastFailure` escaping `CallDoInner` is logged and answered with 0, and the bound call is cleared. |
| Adapter.DirectCallSkipsCountCheck | Internal/NativeFuncImpl.hpp:7-10 | On a slice short of the arity, `CallDoOuter` never reaches `Do`, logs once, returns 0 and leaves memory alone, while `operator()` still runs `Do` and leaves the adapter unchanged. |
| Adapter.Exported | NativeFunc.hpp:462-483 | The exported wrapper returns `Do`'s result when it returns. Any exception, standard or not, gives one log line and the default value. |
| Adapter.ExportedAbsorbsWhatOuterRethrows | NativeFunc.hpp:462-483 | On the same `Do` and arguments, the exported wrapper and `CallDoOuter` log the same number of lines. A return gives the same cell. A standard exception gives the default in both. A non-standard one is rethrown by `CallDoOuter` but becomes the default in the exported wrapper. |
| Hooks.Reentrant | NativeHookImpl.hpp:64-69 | On a re-entrant call, the original runs with the hook removed, and the hook state is restored afterwards. |
| Hooks.NestedCalls | NativeHookImpl.hpp:60-76 | Every call `Do` makes back into the hook reaches the original with the hook out of the way, and the state comes back each time. |
| Hooks.InvokeAsWritten | NativeHookImpl.hpp:60-76 | A first-level call runs `Do` once, then the original for each nested call `Do` makes. A call while recursing runs the original only. When `Do` returns, the flags are as before. When `Do` throws, the second `Recursing()` is skipped and the flag stays set. The `void` operator at lines 208-221 is the same code. |
| Hooks.ThrowDisablesHook | NativeHookImpl.hpp:60-76 | After one first-level call whose `Do` throws, every later call runs the original instead of `Do`, and the flag stays set. |
| Hooks.Invoke | NativeHookImpl.hpp:60-76 | Corrected call operator: the same code runs as in the as-written one, but the second `Recursing()` runs however `Do` ends. So the hook's flags are the same afterwards as before, even when `Do` throws. |
| Hooks.HookRecoversAfterThrow | NativeHookImpl.hpp:60-76 | With the corrected operator, the call after one whose `Do` threw runs `Do` again. |
| Hooks.Open | NativeHookImpl.hpp:24-29 | `removed_` is what `Remove` reported: true iff the hook was installed. The hook is out afterwards. `operator*` (lines 78-83) builds its scope through this constructor. |
| Hooks.Close | NativeHookImpl.hpp:17-21 | The destructor reinstalls iff this object removed the hook. |
| Hooks.CallThrough | NativeHookImpl.hpp:12-15 | `ScopedCall::operator()` calls the original directly. It does no recursion bookkeeping and leaves the hook state alone. |
| Hooks.ScopeRoundTrip | NativeHookImpl.hpp:12-29 | Opening a scope, calling through it and closing it leaves the hook as it was. The original runs with the hook out. |
| Hooks.Move | NativeHookImpl.hpp:35-42 | The new object takes over `removed_`, and the moved-from one is cleared. |
| Hooks.MovesReinstallAtMostOnce | NativeHookImpl.hpp:35-42 | After any chain of moves, exactly one object, the final owner, reinstalls a removed hook. |
| Hooks.Copy | NativeHookImpl.hpp:32 | The defaulted copy keeps `removed_` in both objects. |
| Hooks.CopyReinstallsTwice | NativeHookImpl.hpp:32 | Copying a scope that removed the hook leads to two reinstalls for one removal. |
| Loader.RegisterFrom | NativesMain.hpp:35-43 | One `amx_Register` call per adapter, in list order, each given the adapter's entry followed by the `{0, 0}` sentinel. The last call's result overwrites all earlier ones. |
| Loader.InstallAll | NativesMain.hpp:54-66 | A hook is installed on the address `sampgdk_FindNative` reports, with its own replacement. A hook whose native is not found is left as it was. |
| Loader.AmxLoad | NativesMain.hpp:18-71 | It returns the last registration's result, or 0 when there is no list or the list is empty. Hooks are processed only while the init flag is set, and the flag is cleared. |
| Loader.SecondLoadInstallsNothing | NativesMain.hpp:47-49 | A second load leaves every hook as the first load left it, whatever the finder now says, while the adapters are registered again. |
| Loader.NothingToRegisterReturnsZero | NativesMain.hpp:20-23 | With no adapter list or an empty one, nothing is registered and the result is 0. |

## Left out

- VM encoding: the primitives have an abstract meaning.
  - Strings are whole values at host addresses, with no packing or character width.
  - `amx_GetAddr` adds a fixed base and never fails.
  - `amx_Register` and `sampgdk_FindNative` are oracles passed in.
- Floating point: `amx_ctof` and `ParamLookup<float>` (Internal/NativeCast.hpp:57-69) are left out, and so is the `*(cell *)&ret` reinterpretation of a result. A cell's bits and a result's bits are kept as integers.
- subhook internals: `Install` and `Remove` are a flag. `NativeHookBase::Recursing()` is not part of this model. It is modelled as a flag that each call reports and then flips, which is the reading under which the call operator's two calls balance.
- Dependency injection: `ParamInject<T>::Get` is not part of this model. Its result for each dependency type is a handle or an exception, passed in as `lookup`.
- Folder.ToArgs: C++ leaves unspecified the order in which `Do`'s arguments are converted. So when lookups fail for several injected parameters, which exception escapes is unspecified. The model reports the first in declared order.
- Casts.ConstructOutString, Casts.ConstructInString, Casts.Construct: the `std::string` assignment `value_ = src` (Internal/NativeCast.hpp:333, 384) can throw `bad_alloc`. The model does not include this, because whether it allocates depends on the library's small-string buffer; the newer string casts fail only as stated. The `alloca` buffers are not modelled either.
- LegacyCasts.Construct: the `T const *` constructor assigns `*(T *)&addr`, a `T`, to its `T *` member (NativeCast.hpp:157). For an ordinary `T` such as `int` this does not compile. The model gives the cast the translated address, as the `T *` cast holds it, which is what the code evidently means.
- `ParamCast<T &>` (Internal/NativeCast.hpp:220-247) is left out: it uses a `ParamLookup<T>::Ref` that is not part of this model.
- Shapes whose constructors are deleted are absent from the shape datatypes: `char *`, `char const *` and `std::string &` in the newer casts, and `DI<T>` by value or by pointer.
- `TypeResolver` is a compile-time type alias with no run-time behaviour.
- The preprocessor machinery, the `__pragma` export and the `NATIVE_DECL` glue are left out, because they generate code rather than behave. The generated classes are modelled through a parameter list of at most sixteen shapes.
- Logging text, `sprintf` buffers and `alloca` are left out; a log is counted, not formatted.
- The `varargs_s` destructor (NativeFuncGen.hpp:53-56) only frees `Params`. Memory is not tracked beyond which requests are granted, so the model records that the legacy varargs cast frees and nothing more.
- `malloc` is an oracle of which sizes it grants, and the contents of a fresh block are an arbitrary string.
- `Do` cannot observe `GetAMX()`/`GetParams()` during the call, and cannot write VM memory through raw pointers; its effect on memory is the output-buffer contents it returns.
- Adapter.CallDoOuter: `|shapes| <= 16` and the requirement that every `char *` is followed by another parameter stand in for the templates' compile-time shapes. Without the second, a `char *` in last position would read past the slice in the source.
- Adapter.CallDoOuter: a slice is taken to be well formed (word 0 equals four times the words that follow). The source trusts the VM for this.
- Loader.AmxLoad: the `amx` pointer is not modelled; registration results come from the oracle.
- Hooks.Invoke: the value returned through the hook is not modelled, only which code ran and the hook state. An exception from the original native in the re-entrant branch is not modelled either; only `Do` throws.
- Folder.DispatchAsWritten: when a cast constructor throws, C++ leaves unspecified whether the copies of the earlier casts for the next frame were already made. Such copies hold construction-time contents, and the model does not destroy them.
- A `varargs_t` parameter that is not the last one is copied into every later frame by the same by-value passing (Internal/NativeCast.hpp:417). `varargs_s` has the implicit shallow copy, so every copy's destructor frees the same `Params` block (NativeFuncGen.hpp:53-56): a double free. Frees are not tracked in the newer casts, so this is not modelled.

## Findings

| source | as written | input that shows it | evidently intended | confidence | as-written member | corrected member |
|---|---|---|---|---|---|---|
| Internal/NativeCast.hpp:414-418 | Each `ParamArray::Call` frame passes the casts it has built, by value, to the next frame. So after `Do` returns, every outer frame still holds a copy of each earlier cast made before `Do` edited it, and destroying those copies writes the stale contents back over `Do`'s output. | Parameters `(std::string * out, int x)`, slice `[12, 100, 8, 7]`, VM string "abc" at 100, and `Do` sets `*out = "hi"`: the VM ends with "abc". | Each cast is destroyed once, after `Do`, so the VM buffer holds what `Do` wrote. | not executed | Folder.DispatchAsWritten, Folder.StaleCopyOverwritesOutput | Folder.Dispatch, Folder.OutputReflectsEdit |
| NativeCast.hpp:201-262 | For an empty `char *` capacity or an empty `char const *` string, `value_` points at the member `fake_`, yet the destructor calls `free(value_)`. | A `char *` parameter whose capacity cell is 0, or a `char const *` whose VM string is empty. | Free only a block `malloc` returned. | not executed | LegacyCasts.DestroyAsWritten, LegacyCasts.EmptyStringFreesMember | LegacyCasts.Destroy, LegacyCasts.DestroyFreesWhatWasAllocated |
| NativeHookImpl.hpp:60-76 | The second `Recursing()` call follows the `if`, so an exception from `Do` skips it and the flag stays set. | A first-level call whose `Do` throws: every later call takes the re-entrant branch, and the replacement never runs again. | Restore the flag however `Do` ends, for example with a scope guard. | not executed | Hooks.InvokeAsWritten, Hooks.ThrowDisablesHook | Hooks.Invoke, Hooks.HookRecoversAfterThrow |
| NativeCast.hpp:193-208 | The `char *` constructor allocates the buffer but never fills it (the `amx_GetString` call at line 198 is commented out). The destructor still writes the whole buffer back. | A `char *` with capacity 8 over the VM string "abc", where `Do` writes nothing and the fresh block holds "xyz": the VM ends with "xyz". | Read the VM string into the buffer, as the newer `std::string *` cast does (Internal/NativeCast.hpp:329-332). | not executed | LegacyCasts.ConstructCharOutAsWritten, LegacyCasts.UnreadBufferWritesJunk, Adapter.UntouchedBufferAsWritten | LegacyCasts.ConstructCharOut, LegacyCasts.CharOutRoundTrip, Adapter.BufferReflectsEdit |

=== FILE: adapter.dfy ===
/** The native-function adapter of the `plugin_natives` namespace:
    `NativeFuncBase` (self-registration and the guarded outer call), the
    per-arity `CallDoInner` that builds one cast per parameter at a fixed
    index, the direct `operator()`, and the exported `NATIVE_DEFN` wrapper. */
module Adapter {
  import opened Amx
  import opened VarArgs
  import opened Host
  import opened LegacyCasts

  /** The highest arity the generated templates provide (parameters A .. P). */
  const MaxArity: nat := 16

  /** A parameter list the arity templates can instantiate safely: at most
      sixteen parameters, and every `char *` followed by the parameter that
      carries its capacity, so that the count check covers the capacity cell. */
  predicate Declarable(shapes: seq<Shape>)
  {
    && |shapes| <= MaxArity
    && forall k :: 0 <= k < |shapes| && shapes[k].CharOut? ==> k + 1 < |shapes|
  }

  /** Each parameter k (from 0) has its cells at index k + 1. */
  predicate FixedReadable(shapes: seq<Shape>, params: seq<int>)
  {
    forall k :: 0 <= k < |shapes| ==> Readable(shapes[k], params, k + 1)
  }

  /** Once the count check passed on a well-formed slice, every fixed-index
      cast of a declarable list reads only cells that exist. */
  lemma CheckedSliceIsReadable(shapes: seq<Shape>, params: seq<int>)
    requires Declarable(shapes)
    requires WellFormed(params)
    requires |shapes| <= ArgWords(params)
    ensures FixedReadable(shapes, params)
  {
  }

  /** The `ParamCast<A> a(amx, params, 1); ParamCast<B> b(amx, params, 2); ...`
      sequence: parameter k is built at index `idx + k` whatever the
      footprint of the parameters before it. */
  function BuildFixed(v: Variant, shapes: seq<Shape>, vm: Vm, heap: Heap, params: seq<int>, idx: int): (b: Built<Cast>)
    requires forall k :: 0 <= k < |shapes| ==> Readable(shapes[k], params, idx + k)
    ensures |b.casts| <= |shapes|
    ensures b.failure.None? ==> |b.casts| == |shapes|
    ensures b.failure.Some? ==>
      && |b.casts| < |shapes|
      && Construct(v, shapes[|b.casts|], vm, heap, params, idx + |b.casts|) == Err(b.failure.value)
    ensures forall k :: 0 <= k < |b.casts| ==> Construct(v, shapes[k], vm, heap, params, idx + k) == Ok(b.casts[k])
    decreases |shapes|
  {
    if |shapes| == 0 then Built([], None)
    else
      var first := Construct(v, shapes[0], vm, heap, params, idx);
      if first.Err? then Built([], Some(first.error))
      else
        assert forall k :: 0 <= k < |shapes| - 1 ==> shapes[1..][k] == shapes[k + 1];
        var rest := BuildFixed(v, shapes[1..], vm, heap, params, idx + 1);
        Built([first.value] + rest.casts, rest.failure)
  }

  /** The casts after `Do` ran: each `char *` buffer holds what `Do` left
      in it. */
  function Edited(casts: seq<Cast>, edits: map<int, string>): (r: seq<Cast>)
    ensures |r| == |casts|
    ensures forall k :: 0 <= k < |casts| ==> (Writes(r[k]) <==> Writes(casts[k]))
    ensures forall k :: 0 <= k < |casts| && casts[k].CharOutCast? ==>
      r[k] == casts[k].(buf := if k in edits then edits[k] else casts[k].buf)
  {
    seq(|casts|, k requires 0 <= k < |casts| =>
      if casts[k].CharOutCast? && k in edits then casts[k].(buf := edits[k]) else casts[k])
  }

  /** The locals are destroyed in reverse declaration order. Kept apart from
      `Folder.Unwind`: these are the legacy casts, destroyed by `Destroy`. */
  function Unwind(casts: seq<Cast>, vm: Vm): Vm
    decreases |casts|
  {
    if |casts| == 0 then vm else Unwind(casts[..|casts| - 1], Destroy(casts[|casts| - 1], vm).vm)
  }

  /** Destroying locals none of which writes leaves VM memory unchanged. */
  lemma {:induction false} UnwindWithoutWriters(casts: seq<Cast>, vm: Vm)
    requires forall k :: 0 <= k < |casts| ==> !Writes(casts[k])
    ensures Unwind(casts, vm) == vm
    decreases |casts|
  {
    if |casts| > 0 {
      UnwindWithoutWriters(casts[..|casts| - 1], vm);
    }
  }

  /** When only local j writes, destroying them all is its write-back. */
  lemma {:induction false} UnwindSingleWriter(casts: seq<Cast>, j: int, vm: Vm)
    requires 0 <= j < |casts|
    requires forall k :: 0 <= k < |casts| && k != j ==> !Writes(casts[k])
    ensures Unwind(casts, vm) == WriteBack(casts[j], vm)
    decreases |casts|
  {
    var n := |casts|;
    if j == n - 1 {
      UnwindWithoutWriters(casts[..n - 1], WriteBack(casts[j], vm));
    } else {
      assert casts[..n - 1][j] == casts[j];
      UnwindSingleWriter(casts[..n - 1], j, vm);
    }
  }

  /** The result of one `CallDoInner`: the cell returned or the exception
      that escaped, VM memory after the locals were destroyed, and the
      arguments `Do` was given if it ran. */
  datatype Reply = Reply(result: Result<int>, vm: Vm, args: Option<seq<Arg>>)

  /** `CallDoInner` of `NativeFunc0` and of the arity templates: build the
      casts at indices 1 .. N, call `Do`, and map its return to a cell. The
      locals are destroyed however the call ends, so a buffer `Do` wrote
      before throwing is still written back. `v` picks the `char *`
      constructor: `AsWritten` is the source, `Corrected` reads the buffer in. */
  function CallDoInner(v: Variant, shapes: seq<Shape>, vm: Vm, heap: Heap, params: seq<int>, host: HostFn): (r: Reply)
    requires |shapes| <= MaxArity
    requires FixedReadable(shapes, params)
    ensures var b := BuildFixed(v, shapes, vm, heap, params, 1);
      && (r.args.Some? <==> b.failure.None?)
      && (r.args.None? ==> r.result == Err(b.failure.value))
    ensures r.args.Some? ==> |r.args.value| == |shapes|
    ensures r.args.Some? ==> forall k :: 0 <= k < |shapes| ==>
      Construct(v, shapes[k], vm, heap, params, k + 1).Ok? &&
      r.args.value[k] == ArgOf(Construct(v, shapes[k], vm, heap, params, k + 1).value)
    ensures r.result.Ok? <==> r.args.Some? && host(r.args.value).Done?
    ensures r.result.Ok? && host(r.args.value).ret.Void? ==> r.result.value == 1
    ensures r.result.Ok? && host(r.args.value).ret.Bits? ==> r.result.value == host(r.args.value).ret.cell
    ensures r.result.Err? && r.args.Some? ==> host(r.args.value).Threw? && host(r.args.value).e == r.result.error
  {
    var b := BuildFixed(v, shapes, vm, heap, params, 1);
    if b.failure.Some? then Reply(Err(b.failure.value), Unwind(b.casts, vm), None)
    else
      var args := seq(|b.casts|, k requires 0 <= k < |b.casts| => ArgOf(b.casts[k]));
      match host(args)
      case Threw(e, edits) => Reply(Err(e), Unwind(Edited(b.casts, edits), vm), Some(args))
      case Done(ret, edits) => Reply(Ok(ReturnCell(ret)), Unwind(Edited(b.casts, edits), vm), Some(args))
  }

  /** A parameter list without a `char *` leaves VM memory exactly as it
      was, whether the casts fail, `Do` returns or `Do` throws. */
  lemma NoBuffersLeaveMemory(v: Variant, shapes: seq<Shape>, vm: Vm, heap: Heap, params: seq<int>, host: HostFn)
    requires |shapes| <= MaxArity
    requires FixedReadable(shapes, params)
    requires forall k :: 0 <= k < |shapes| ==> !shapes[k].CharOut?
    ensures CallDoInner(v, shapes, vm, heap, params, host).vm == vm
  {
    var b := BuildFixed(v, shapes, vm, heap, params, 1);
    forall k | 0 <= k < |b.casts|
      ensures !Writes(b.casts[k])
    {
      assert Construct(v, shapes[k], vm, heap, params, k + 1) == Ok(b.casts[k]);
    }
    UnwindWithoutWriters(b.casts, vm);
    if b.failure.None? {
      var args := seq(|b.casts|, k requires 0 <= k < |b.casts| => ArgOf(b.casts[k]));
      UnwindWithoutWriters(Edited(b.casts, host(args).edits), vm);
    }
  }

  /** A call that reached `Do`: every cast was built, and memory is what
      destroying the edited locals leaves, however `Do` ended. */
  lemma InnerRanDo(v: Variant, shapes: seq<Shape>, vm: Vm, heap: Heap, params: seq<int>, host: HostFn)
    requires |shapes| <= MaxArity
    requires FixedReadable(shapes, params)
    requires CallDoInner(v, shapes, vm, heap, params, host).args.Some?
    ensures var b := BuildFixed(v, shapes, vm, heap, params, 1);
      var r := CallDoInner(v, shapes, vm, heap, params, host);
      && b.failure.None?
      && r.args.value == seq(|b.casts|, k requires 0 <= k < |b.casts| => ArgOf(b.casts[k]))
      && r.vm == Unwind(Edited(b.casts, host(r.args.value).edits), vm)
  {
  }

  /** What a `char *` buffer of `len` bytes at `addr` holds before `Do`
      runs: the fresh block's leftovers as written, the VM string cut to fit
      when corrected. */
  function InitialBuffer(v: Variant, vm: Vm, heap: Heap, addr: int, len: int): string
  {
    if v.AsWritten? then heap.junk else Truncate(StringAt(vm, addr), len)
  }

  /** The local built for a `char *` of positive capacity at fixed index
      j + 1, and the only one that writes when it is the only `char *`. */
  lemma BuiltBuffer(v: Variant, shapes: seq<Shape>, vm: Vm, heap: Heap, params: seq<int>, j: int)
    requires FixedReadable(shapes, params)
    requires 0 <= j < |shapes| && shapes[j].CharOut?
    requires forall k :: 0 <= k < |shapes| && k != j ==> !shapes[k].CharOut?
    requires params[j + 2] > 0
    requires BuildFixed(v, shapes, vm, heap, params, 1).failure.None?
    ensures var b := BuildFixed(v, shapes, vm, heap, params, 1);
      var addr := GetAddr(vm, params[j + 1]);
      && b.casts[j] == CharOutCast(params[j + 2], addr, InitialBuffer(v, vm, heap, addr, params[j + 2]), true)
      && forall k :: 0 <= k < |b.casts| && k != j ==> !Writes(b.casts[k])
  {
    var b := BuildFixed(v, shapes, vm, heap, params, 1);
    assert Construct(v, CharOut, vm, heap, params, j + 1) == Ok(b.casts[j]);
    forall k | 0 <= k < |b.casts| && k != j
      ensures !Writes(b.casts[k])
    {
      assert Construct(v, shapes[k], vm, heap, params, k + 1) == Ok(b.casts[k]);
    }
  }

  /** With a single `char *` of positive capacity, once `Do` has run (and
      returned or thrown) the VM buffer holds what `Do` left in it, cut to
      the capacity. A buffer `Do` did not touch is stored back as it was
      built: as written that is the fresh block's leftovers, whatever the VM
      held; corrected, the VM keeps its old string, cut the same way. */
  lemma BufferReflectsEdit(v: Variant, shapes: seq<Shape>, vm: Vm, heap: Heap, params: seq<int>, host: HostFn, j: int)
    requires |shapes| <= MaxArity
    requires FixedReadable(shapes, params)
    requires 0 <= j < |shapes| && shapes[j].CharOut?
    requires forall k :: 0 <= k < |shapes| && k != j ==> !shapes[k].CharOut?
    requires params[j + 2] > 0
    ensures var r := CallDoInner(v, shapes, vm, heap, params, host);
      r.args.Some? ==>
        var edits := host(r.args.value).edits;
        var addr := GetAddr(vm, params[j + 1]);
        StringAt(r.vm, addr) == Truncate(
          if j in edits then edits[j]
          else if v.AsWritten? then heap.junk
          else StringAt(vm, addr), params[j + 2])
  {
    if CallDoInner(v, shapes, vm, heap, params, host).args.None? {
      return;
    }
    InnerRanDo(v, shapes, vm, heap, params, host);
    BuiltBuffer(v, shapes, vm, heap, params, j);
    var casts := BuildFixed(v, shapes, vm, heap, params, 1).casts;
    var edits := host(CallDoInner(v, shapes, vm, heap, params, host).args.value).edits;
    var e := Edited(casts, edits);
    UnwindSingleWriter(e, j, vm);
    var c := casts[j];
    if j !in edits {
      assert e[j] == c;
      if v.Corrected? {
        TruncateIdempotent(StringAt(vm, c.addr), c.len);
      }
    } else {
      assert e[j] == c.(buf := edits[j]);
    }
  }

  /** A `char *` followed by its capacity 8 over the VM string "abc", and a
      `Do` that returns without writing: the source stores the fresh block's
      leftovers ("xyz" here) over "abc", and the corrected cast keeps "abc". */
  lemma UntouchedBufferAsWritten()
    ensures var shapes := [CharOut, Value];
      var vm := Vm(0, map[100 := "abc"]);
      var heap := Heap((n: nat) => true, "xyz");
      var params := [8, 100, 8];
      var host: HostFn := (args: seq<Arg>) => Done(Void, map[]);
      && FixedReadable(shapes, params)
      && CallDoInner(AsWritten, shapes, vm, heap, params, host).result == Ok(1)
      && StringAt(CallDoInner(AsWritten, shapes, vm, heap, params, host).vm, 100) == "xyz"
      && StringAt(CallDoInner(Corrected, shapes, vm, heap, params, host).vm, 100) == "abc"
  {
    var shapes := [CharOut, Value];
    var vm := Vm(0, map[100 := "abc"]);
    var heap := Heap((n: nat) => true, "xyz");
    var params := [8, 100, 8];
    var host: HostFn := (args: seq<Arg>) => Done(Void, map[]);
    assert CallDoInner(AsWritten, shapes, vm, heap, params, host).args.Some?;
    assert CallDoInner(Corrected, shapes, vm, heap, params, host).args.Some?;
    BufferReflectsEdit(AsWritten, shapes, vm, heap, params, host, 0);
    BufferReflectsEdit(Corrected, shapes, vm, heap, params, host, 0);
  }

  /** With no parameters (`NativeFunc0`) nothing is read from the slice:
      whatever it holds, `Do` is called with no arguments and a `void`
      result gives 1. */
  lemma ZeroArityReadsNothing(v: Variant, vm: Vm, heap: Heap, params: seq<int>, other: seq<int>, host: HostFn)
    ensures CallDoInner(v, [], vm, heap, params, host) == CallDoInner(v, [], vm, heap, other, host)
    ensures CallDoInner(v, [], vm, heap, params, host).args == Some([])
    ensures host([]) == Done(Void, map[]) ==> CallDoInner(v, [], vm, heap, params, host).result == Ok(1)
  {
  }

  /** `amx_`/`params_`: the call an adapter is dispatching, if any. */
  datatype Context = Idle | Bound(params: seq<int>)

  /** A `NativeFuncBase`: its name, declared parameters, required byte
      count `count_`, exported entry point `native_` and bound call. */
  datatype Native = Native(name: string, shapes: seq<Shape>, count: nat, native: nat, context: Context)

  predicate Valid(n: Native)
  {
    Declarable(n.shapes) && n.count == |n.shapes| * CellBytes
  }

  /** The constructor: `count_` is the arity in bytes, no call is bound, and
      the adapter is appended to the process-wide list, which the first
      construction creates. */
  function Create(all: Option<seq<Native>>, name: string, shapes: seq<Shape>, native: nat): (r: (Native, Option<seq<Native>>))
    requires Declarable(shapes)
    ensures Valid(r.0) && r.0.context == Idle
    ensures r.0.name == name && r.0.shapes == shapes && r.0.native == native
    ensures r.1.Some?
    ensures all.None? ==> r.1.value == [r.0]
    ensures all.Some? ==> r.1.value == all.value + [r.0]
  {
    var n := Native(name, shapes, |shapes| * CellBytes, native, Idle);
    var list := if all.None? then [] else all.value;
    (n, Some(list + [n]))
  }

  /** One adapter declaration, as the generated code constructs it. */
  datatype Decl = Decl(name: string, shapes: seq<Shape>, native: nat)

  /** Static initialisation: the declared adapters constructed in order. */
  function CreateAll(all: Option<seq<Native>>, decls: seq<Decl>): Option<seq<Native>>
    requires forall k :: 0 <= k < |decls| ==> Declarable(decls[k].shapes)
    decreases |decls|
  {
    if |decls| == 0 then all
    else CreateAll(Create(all, decls[0].name, decls[0].shapes, decls[0].native).1, decls[1..])
  }

  /** The process-wide list holds the adapters in construction order, each
      idle and with its arity in bytes. */
  lemma {:induction false} ListInConstructionOrder(all: Option<seq<Native>>, decls: seq<Decl>)
    requires forall k :: 0 <= k < |decls| ==> Declarable(decls[k].shapes)
    requires all.Some? || |decls| > 0
    ensures var r := CreateAll(all, decls);
      var before := if all.None? then [] else all.value;
      && r.Some?
      && |r.value| == |before| + |decls|
      && r.value[..|before|] == before
      && forall k :: 0 <= k < |decls| ==>
           r.value[|before| + k] == Native(decls[k].name, decls[k].shapes, |decls[k].shapes| * CellBytes, decls[k].native, Idle)
    decreases |decls|
  {
    var before := if all.None? then [] else all.value;
    if |decls| == 0 {
    } else {
      var next := Create(all, decls[0].name, decls[0].shapes, decls[0].native).1;
      assert forall k :: 0 <= k < |decls| - 1 ==> decls[1..][k] == decls[k + 1];
      ListInConstructionOrder(next, decls[1..]);
      var r := CreateAll(next, decls[1..]);
      assert next.value == before + [Create(all, decls[0].name, decls[0].shapes, decls[0].native).0];
      assert r.value[..|before|] == r.value[..|before| + 1][..|before|];
    }
  }

  /** How `CallDoOuter` ended: the cell returned (`None` when the exception
      was rethrown), VM memory, the number of error lines logged, the
      adapter's state afterwards, and whether `CallDoInner` ran. */
  datatype Outcome = Outcome(ret: Option<int>, vm: Vm, logs: nat, native: Native, ranInner: bool)

  /** `NativeFuncBase::CallDoOuter`. `amx` is false for a null interpreter
      and `params` is `None` for a null stack; `v` is passed on to
      `CallDoInner`. */
  function CallDoOuter(v: Variant, n: Native, amx: bool, params: Option<seq<int>>, vm: Vm, heap: Heap, host: HostFn): (o: Outcome)
    requires Valid(n)
    requires params.Some? ==> WellFormed(params.value) && IsCell(params.value[0])
    // A null interpreter or stack: nothing happens and 0 is returned.
    ensures !amx || params.None? ==> o == Outcome(Some(0), vm, 0, n, false)
    // Otherwise the bound call is always cleared afterwards.
    ensures amx && params.Some? ==> o.native == n.(context := Idle)
    // The inner call runs exactly when the slice holds the arity's words.
    ensures amx && params.Some? ==> (o.ranInner <==> |n.shapes| <= ArgWords(params.value))
    ensures amx && params.Some? && !o.ranInner ==> o.ret == Some(0) && o.logs == 1 && o.vm == vm
    ensures o.ranInner ==> params.Some? && FixedReadable(n.shapes, params.value)
    ensures o.ranInner ==>
      var inner := CallDoInner(v, n.shapes, vm, heap, params.value, host);
      && o.vm == inner.vm
      && (inner.result.Ok? ==> o.ret == Some(inner.result.value) && o.logs == 0)
      && (inner.result.Err? && inner.result.error.IsStd() ==> o.ret == Some(0) && o.logs == 1)
      && (inner.result.Err? && !inner.result.error.IsStd() ==> o.ret.None? && o.logs == 1)
  {
    if !amx || params.None? then Outcome(Some(0), vm, 0, n, false)
    else
      var p := params.value;
      var bound := n.(context := Bound(p));
      if bound.count > AsUnsigned(p[0]) then
        // `throw std::invalid_argument`, caught and logged.
        Outcome(Some(0), vm, 1, bound.(context := Idle), false)
      else
        CheckedSliceIsReadable(n.shapes, p);
        var inner := CallDoInner(v, n.shapes, vm, heap, p, host);
        match inner.result
        case Ok(cell) => Outcome(Some(cell), inner.vm, 0, bound.(context := Idle), true)
        case Err(e) =>
          if e.IsStd() then Outcome(Some(0), inner.vm, 1, bound.(context := Idle), true)
          else Outcome(None, inner.vm, 1, bound.(context := Idle), true)
  }

  /** Through the guarded entry point too, an adapter without a `char *`
      never changes VM memory, on any path. */
  lemma GuardedCallLeavesMemory(v: Variant, n: Native, amx: bool, params: Option<seq<int>>, vm: Vm, heap: Heap, host: HostFn)
    requires Valid(n)
    requires params.Some? ==> WellFormed(params.value) && IsCell(params.value[0])
    requires forall k :: 0 <= k < |n.shapes| ==> !n.shapes[k].CharOut?
    ensures CallDoOuter(v, n, amx, params, vm, heap, host).vm == vm
  {
    if CallDoOuter(v, n, amx, params, vm, heap, host).ranInner {
      NoBuffersLeaveMemory(v, n.shapes, vm, heap, params.value, host);
    }
  }

  /** The required word count is the arity: a slice one word short is
      rejected with one log line and never reaches `Do`; a slice with exactly
      the arity's words is accepted. */
  lemma CountCheckBoundary(v: Variant, n: Native, vm: Vm, heap: Heap, host: HostFn, params: seq<int>)
    requires Valid(n) && |n.shapes| > 0
    requires WellFormed(params) && IsCell(params[0])
    ensures ArgWords(params) == |n.shapes| - 1 ==>
      var o := CallDoOuter(v, n, true, Some(params), vm, heap, host);
      !o.ranInner && o.ret == Some(0) && o.logs == 1
    ensures ArgWords(params) == |n.shapes| ==> CallDoOuter(v, n, true, Some(params), vm, heap, host).ranInner
  {
  }

  /** A `ParamCastFailure` is logged and answered with 0 like every other
      standard exception: there is no silent path. */
  lemma CastFailureIsLogged(v: Variant, n: Native, vm: Vm, heap: Heap, host: HostFn, params: seq<int>)
    requires Valid(n)
    requires WellFormed(params) && IsCell(params[0])
    requires |n.shapes| <= ArgWords(params)
    requires CallDoInner(v, n.shapes, vm, heap, params, host).result == Err(CastFailure)
    ensures var o := CallDoOuter(v, n, true, Some(params), vm, heap, host);
      o.ret == Some(0) && o.logs == 1 && o.native.context == Idle
  {
  }

  /** `operator()`: calls `Do` with host values directly; no cast is built,
      no count is checked and the adapter's state does not change. */
  function CallDirect(n: Native, host: HostFn, args: seq<Arg>): (Native, HostOutcome)
  {
    (n, host(args))
  }

  /** `operator()` runs `Do` even for a call `CallDoOuter` would reject. */
  lemma DirectCallSkipsCountCheck(v: Variant, n: Native, vm: Vm, heap: Heap, host: HostFn, params: seq<int>, args: seq<Arg>)
    requires Valid(n)
    requires WellFormed(params) && IsCell(params[0])
    requires ArgWords(params) < |n.shapes|
    ensures var o := CallDoOuter(v, n, true, Some(params), vm, heap, host);
      !o.ranInner && o.ret == Some(0) && o.logs == 1 && o.vm == vm
    ensures CallDirect(n, host, args) == (n, host(args))
  {
  }

  /** The exported `NATIVE_<name>` function generated by `NATIVE_DEFN`: every
      exception, standard or not, is logged once and replaced by the
      default value (nothing for `void`, a zero result otherwise). */
  function Exported(host: HostFn, args: seq<Arg>, isVoid: bool): (r: (Ret, nat))
    ensures host(args).Done? ==> r == (host(args).ret, 0)
    ensures host(args).Threw? ==> r.1 == 1
    ensures host(args).Threw? && isVoid ==> r.0 == Void
    ensures host(args).Threw? && !isVoid ==> r.0 == Bits(0)
  {
    match host(args)
    case Done(ret, _) => (ret, 0)
    case Threw(_, _) => (if isVoid then Void else Bits(0), 1)
  }

  /** The exported wrapper and the guarded entry point on the same `Do` and
      arguments: a return gives the same cell and no log line in both. A
      standard exception is logged once by both, which answer with their
      default. A non-standard one is also logged once by both, but
      `CallDoOuter` rethrows it while the exported wrapper swallows it. */
  lemma ExportedAbsorbsWhatOuterRethrows(v: Variant, n: Native, params: seq<int>, vm: Vm, heap: Heap, host: HostFn, isVoid: bool)
    requires Valid(n)
    requires WellFormed(params) && IsCell(params[0])
    ensures var o := CallDoOuter(v, n, true, Some(params), vm, heap, host);
      o.ranInner ==>
        var inner := CallDoInner(v, n.shapes, vm, heap, params, host);
        inner.args.Some? ==>
          var out := host(inner.args.value);
          var x := Exported(host, inner.args.value, isVoid);
          && x.1 == o.logs
          && (out.Done? ==> o.ret == Some(ReturnCell(x.0)))
          && (out.Threw? ==> x.0 == (if isVoid then Void else Bits(0)))
          && (out.Threw? && out.e.IsStd() ==> o.ret == Some(0))
          && (out.Threw? && !out.e.IsStd() ==> o.ret.None?)
  {
  }
}

=== FILE: amx.dfy ===
/** The VM side of the native-call boundary: cells, stack slices, the
    address-translation and string primitives of the AMX runtime, the C
    allocator the casts use, and the exceptions a native call can raise.

    The runtime primitives are given an abstract but fixed meaning here:
    `amx_GetAddr` adds the data-segment base to a VM address, and VM strings
    are whole values stored at host addresses (no packing or encoding). */
module Amx {

  /** Bytes in one cell, a 32-bit VM word. */
  const CellBytes: nat := 4

  /** 2^32, the modulus of the target's `unsigned int` and `size_t`. */
  const Word: nat := 0x1_0000_0000

  datatype Option<T> = None | Some(value: T)

  /** A value that fits in a signed 32-bit cell. */
  predicate IsCell(c: int)
  {
    -0x8000_0000 <= c < 0x8000_0000
  }

  /** `(unsigned int)c` for a two's-complement cell. */
  function AsUnsigned(c: int): (u: nat)
    requires IsCell(c)
    ensures u < Word
    ensures 0 <= c ==> u == c
    ensures c < 0 ==> u == c + Word
  {
    c % Word
  }

  /** A stack slice as the VM passes it: word 0 holds the byte count of the
      argument words 1..N that follow it. */
  predicate WellFormed(params: seq<int>)
  {
    |params| >= 1 && params[0] == (|params| - 1) * CellBytes
  }

  /** The argument count N a well-formed slice declares, read the way the
      source reads it: the byte count divided by the cell size. */
  function ArgWords(params: seq<int>): (n: nat)
    requires WellFormed(params)
    ensures n == |params| - 1
  {
    params[0] / CellBytes
  }

  /** VM memory as far as this layer sees it: the base of the data segment
      and the NUL-terminated strings stored at host addresses. */
  datatype Vm = Vm(data: int, text: map<int, string>)

  /** `amx_GetAddr`: the host address of a VM address. */
  function GetAddr(vm: Vm, a: int): int
  {
    vm.data + a
  }

  /** The string stored at host address `p` (empty where nothing is stored). */
  function StringAt(vm: Vm, p: int): string
  {
    if p in vm.text then vm.text[p] else ""
  }

  /** `amx_StrLen`. */
  function StrLen(vm: Vm, p: int): nat
  {
    |StringAt(vm, p)|
  }

  /** What fits in a buffer of `size` characters including the terminator:
      at most `size - 1` characters of `s`. */
  function Truncate(s: string, size: int): (t: string)
    ensures t <= s
    ensures size <= 0 ==> t == ""
    ensures size > 0 && |s| < size ==> t == s
    ensures size > 0 && |s| >= size ==> |t| == size - 1
  {
    if size <= 0 then "" else if |s| < size then s else s[..size - 1]
  }

  lemma TruncateIdempotent(s: string, size: int)
    ensures Truncate(Truncate(s, size), size) == Truncate(s, size)
  {
  }

  /** `amx_GetString(dest, p, 0, size)`: copies the VM string into a buffer of
      `size` characters. */
  function GetString(vm: Vm, p: int, size: int): string
  {
    Truncate(StringAt(vm, p), size)
  }

  /** `amx_SetString(p, s, 0, 0, size)`: stores `s` into a VM buffer of `size`
      characters; nothing else in VM memory changes. */
  function SetString(vm: Vm, p: int, s: string, size: int): (vm': Vm)
    requires size > 0
    ensures vm'.data == vm.data
    ensures StringAt(vm', p) == Truncate(s, size)
    ensures forall q :: q != p ==> StringAt(vm', q) == StringAt(vm, q)
  {
    vm.(text := vm.text[p := Truncate(s, size)])
  }

  /** The exceptions that cross the casts and the adapters. */
  datatype Exception =
    | LengthError      // std::length_error
    | BadAlloc         // std::bad_alloc
    | InvalidArgument  // std::invalid_argument
    | CastFailure      // ParamCastFailure, derived from std::invalid_argument
    | CastError        // ParamCastError, derived from std::invalid_argument
    | OtherStd         // any other std::exception a host function throws
    | Unknown          // anything not derived from std::exception
  {
    /** Caught by `catch (std::exception &)`. */
    predicate IsStd()
    {
      !Unknown?
    }
  }

  datatype Result<T> = Ok(value: T) | Err(error: Exception)

  /** The casts built before the first constructor exception, and that
      exception, if any. */
  datatype Built<C> = Built(casts: seq<C>, failure: Option<Exception>)

  /** The C allocator as the casts see it: which request sizes `malloc`
      grants, and what a freshly granted block holds before anyone writes it. */
  datatype Heap = Heap(grants: nat -> bool, junk: string)
}

=== FILE: casts.dfy ===
/** The footprint-aware casts of the `pawn_natives` namespace: one shape per
    supported parameter category, its cell footprint, what constructing it
    reads from the stack slice, and what destroying it writes back.

    The shapes the source deletes (`char *`, `char const *`, `std::string &`,
    `DI<T>` and `DI<T> *`) have no constructor here. */
module Casts {
  import opened Amx
  import opened VarArgs
  import opened Host

  /** Tells the dependency types `T` of `DI<T>` apart. */
  type TypeId = nat

  /** `ParamInject<T>::Get()` for each dependency type: the injected
      object's handle, or the exception the lookup throws. */
  type Lookup = TypeId -> Result<int>

  /** The one-cell categories; `ARG<T, N>` wraps one of these. */
  datatype Direct = ByValue | ByConstValue | ByPointer | ByConstPointer

  datatype Shape =
    | Plain(d: Direct)              // T, T const, T *, T const *
    | VarArgsShape(isConst: bool)   // varargs_t, varargs_t const
    | OutString                     // std::string *
    | InString                      // std::string const &
    | Injected(ty: TypeId, isConst: bool) // DI<T> &, DI<T> const &
    | Positional(d: Direct, n: nat) // ARG<T, N>

  /** `ParamCast<T>::Size`: how far the cursor moves past a parameter. */
  function Size(s: Shape): nat
  {
    match s
    case Plain(_) => 1
    case VarArgsShape(_) => 1
    case OutString => 2
    case InString => 1
    case Injected(_, _) => 0
    case Positional(_, _) => 0
  }

  /** A constructed cast: what it converted, and what it needs for write-back. */
  datatype Cast =
    | ValueCast(bits: int)
    | PointerCast(addr: int)
    | VarArgsCast(va: VarArgs)
    | OutStringCast(len: int, addr: int, value: string)
    | InStringCast(value: string)
    | InjectedCast(ty: TypeId)

  /** The stack cells constructing `s` at cursor `idx` reads all exist. */
  predicate Readable(s: Shape, params: seq<int>, idx: int)
  {
    match s
    case Plain(_) => 0 <= idx < |params|
    case VarArgsShape(_) => WellFormed(params) && 0 <= idx <= ArgWords(params) + 1
    case OutString => 0 <= idx && idx + 1 < |params|
    case InString => 0 <= idx < |params|
    case Injected(_, _) => true
    case Positional(_, n) => n + 1 < |params|
  }

  /** The one-cell casts: a value or const value keeps the cell's bits, a
      pointer or const pointer holds the translated address. */
  function ConstructDirect(d: Direct, vm: Vm, params: seq<int>, idx: int): (c: Cast)
    requires 0 <= idx < |params|
    ensures d.ByValue? || d.ByConstValue? ==> c == ValueCast(params[idx])
    ensures d.ByPointer? || d.ByConstPointer? ==> c == PointerCast(GetAddr(vm, params[idx]))
  {
    match d
    case ByValue => ValueCast(params[idx])
    case ByConstValue => ValueCast(params[idx])
    case ByPointer => PointerCast(GetAddr(vm, params[idx]))
    case ByConstPointer => PointerCast(GetAddr(vm, params[idx]))
  }

  /** Only a constructed output string with a positive capacity writes back. */
  predicate Writes(c: Cast)
  {
    c.OutStringCast? && c.len > 0
  }

  /** `ParamCast<varargs_t>` and `ParamCast<varargs_t const>`: the capture,
      whose only failure is `bad_alloc`. */
  function ConstructVarArgs(vm: Vm, heap: Heap, params: seq<int>, idx: int): (r: Result<Cast>)
    requires WellFormed(params) && 0 <= idx <= ArgWords(params) + 1
    ensures r.Ok? <==> Capture(vm, heap, params, idx).Ok?
    ensures r.Ok? ==> r.value == VarArgsCast(Capture(vm, heap, params, idx).value)
    ensures r.Err? ==> r.error == BadAlloc
  {
    var va := Capture(vm, heap, params, idx);
    if va.Err? then Err(va.error) else Ok(VarArgsCast(va.value))
  }

  /** `ParamCast<std::string *>`: the capacity is the cell after the
      address. A negative one is a `length_error`; 0 gives an empty string
      and no address; a positive one gives the VM string cut to it. */
  function ConstructOutString(vm: Vm, params: seq<int>, idx: int): (r: Result<Cast>)
    requires 0 <= idx && idx + 1 < |params|
    ensures r.Err? <==> params[idx + 1] < 0
    ensures r.Err? ==> r.error == LengthError
    ensures r.Ok? && params[idx + 1] == 0 ==> r.value == OutStringCast(0, 0, "")
    ensures r.Ok? && params[idx + 1] > 0 ==>
      var addr := GetAddr(vm, params[idx]);
      r.value == OutStringCast(params[idx + 1], addr, Truncate(StringAt(vm, addr), params[idx + 1]))
  {
    var len := params[idx + 1];
    if len < 0 then Err(LengthError)
    else if len != 0 then
      var addr := GetAddr(vm, params[idx]);
      Ok(OutStringCast(len, addr, GetString(vm, addr, len)))
    else Ok(OutStringCast(0, 0, ""))
  }

  /** `ParamCast<std::string const &>`: the whole VM string at the
      translated address, its length taken from the string itself. */
  function ConstructInString(vm: Vm, params: seq<int>, idx: int): (c: Cast)
    requires 0 <= idx < |params|
    ensures c == InStringCast(StringAt(vm, GetAddr(vm, params[idx])))
  {
    var addr := GetAddr(vm, params[idx]);
    var len := StrLen(vm, addr);
    if len != 0 then InStringCast(GetString(vm, addr, len + 1)) else InStringCast("")
  }

  /** The constructor of `ParamCast<T>` for shape `s` at cursor `idx`. */
  function Construct(s: Shape, vm: Vm, heap: Heap, params: seq<int>, idx: int): (r: Result<Cast>)
    requires Readable(s, params, idx)
    // The only failures: a negative output capacity, an unobtainable varargs buffer.
    ensures r.Err? ==> (s.OutString? && r.error == LengthError) || (s.VarArgsShape? && r.error == BadAlloc)
    ensures r.Ok? && Writes(r.value) ==> s.OutString?
    // Value casts keep the cell's bits, pointer casts the translated address.
    ensures s.Plain? && (s.d.ByValue? || s.d.ByConstValue?) ==> r == Ok(ValueCast(params[idx]))
    ensures s.Plain? && (s.d.ByPointer? || s.d.ByConstPointer?) ==> r == Ok(PointerCast(GetAddr(vm, params[idx])))
    // `ARG<T, N>` reads cell N + 1 whatever the cursor; `DI<T>` reads nothing.
    ensures s.Positional? ==> r == Ok(ConstructDirect(s.d, vm, params, s.n + 1))
    ensures s.Injected? ==> r == Ok(InjectedCast(s.ty))
    ensures s.VarArgsShape? ==> (r.Ok? <==> Capture(vm, heap, params, idx).Ok?)
    ensures s.VarArgsShape? && r.Ok? ==> r.value == VarArgsCast(Capture(vm, heap, params, idx).value)
    // The output string's capacity is the cell after its address.
    ensures s.OutString? ==> (r.Err? <==> params[idx + 1] < 0)
    ensures s.OutString? && r.Ok? && params[idx + 1] == 0 ==> r.value == OutStringCast(0, 0, "")
    ensures s.OutString? && r.Ok? && params[idx + 1] > 0 ==>
      var addr := GetAddr(vm, params[idx]);
      r.value == OutStringCast(params[idx + 1], addr, Truncate(StringAt(vm, addr), params[idx + 1]))
    // The input string is copied whole, whatever the next cell holds.
    ensures s.InString? ==> r == Ok(InStringCast(StringAt(vm, GetAddr(vm, params[idx]))))
  {
    match s
    case Plain(d) => Ok(ConstructDirect(d, vm, params, idx))
    case Positional(d, n) => Ok(ConstructDirect(d, vm, params, n + 1))
    case Injected(ty, _) => Ok(InjectedCast(ty))
    case VarArgsShape(_) => ConstructVarArgs(vm, heap, params, idx)
    case OutString => ConstructOutString(vm, params, idx)
    case InString => Ok(ConstructInString(vm, params, idx))
  }

  /** The destructor of a cast: an output string with a positive capacity
      stores its current value at the address it read at construction,
      within the same capacity; every other cast leaves VM memory alone. */
  function WriteBack(c: Cast, vm: Vm): Vm
  {
    if Writes(c) then SetString(vm, c.addr, c.value, c.len) else vm
  }

  /** The handle a lookup result converts to; only consulted once the
      lookup succeeded. */
  function HandleOf(found: Result<int>): int
  {
    if found.Ok? then found.value else 0
  }

  /** The conversion operator: what `Do` receives for a cast. An injected
      cast yields the handle its own type's lookup produced. */
  function ArgOf(c: Cast, lookup: Lookup): Arg
  {
    match c
    case ValueCast(b) => Word(b)
    case PointerCast(p) => Address(p)
    case VarArgsCast(va) => VarList(va)
    case OutStringCast(_, _, v) => OutText(v)
    case InStringCast(v) => InText(v)
    case InjectedCast(ty) => Handle(HandleOf(lookup(ty)))
  }

  /** Value, pointer, input-string, varargs and injected casts never change VM memory. */
  lemma NonOutputsWriteNothing(s: Shape, vm: Vm, heap: Heap, params: seq<int>, idx: int, vm0: Vm)
    requires Readable(s, params, idx)
    requires !s.OutString?
    requires Construct(s, vm, heap, params, idx).Ok?
    ensures WriteBack(Construct(s, vm, heap, params, idx).value, vm0) == vm0
  {
  }

  /** An output string that `Do` leaves alone is written back as it was read:
      the VM string is cut to the capacity and otherwise unchanged, and a
      string that already fitted is left exactly as it was. */
  lemma {:induction false} OutStringRoundTrip(vm: Vm, heap: Heap, params: seq<int>, idx: int)
    requires Readable(OutString, params, idx)
    requires params[idx + 1] > 0
    ensures var c := Construct(OutString, vm, heap, params, idx).value;
      var vm' := WriteBack(c, vm);
      && StringAt(vm', c.addr) == Truncate(StringAt(vm, c.addr), c.len)
      && (|StringAt(vm, c.addr)| < c.len ==> forall q :: StringAt(vm', q) == StringAt(vm, q))
  {
    var c := Construct(OutString, vm, heap, params, idx).value;
    TruncateIdempotent(StringAt(vm, c.addr), c.len);
  }

  /** The input-string cast takes its length from the VM string, not from an
      adjacent cell: changing the next cell changes nothing. */
  lemma InStringIgnoresNextCell(vm: Vm, heap: Heap, params: seq<int>, idx: int, x: int)
    requires 0 <= idx && idx + 1 < |params|
    ensures Construct(InString, vm, heap, params, idx) == Construct(InString, vm, heap, params[idx + 1 := x], idx)
  {
  }

  /** A positional cast reads cell N + 1 wherever the cursor stands. */
  lemma PositionalIgnoresCursor(d: Direct, n: nat, vm: Vm, heap: Heap, params: seq<int>, i: int, j: int)
    requires n + 1 < |params|
    ensures Construct(Positional(d, n), vm, heap, params, i) == Construct(Positional(d, n), vm, heap, params, j)
    ensures Construct(Positional(d, n), vm, heap, params, i) == Construct(Plain(d), vm, heap, params, n + 1)
  {
  }
}

=== FILE: folder.dfy ===
/** The argument-list folder of the `pawn_natives` namespace: `ParamData::Sum`
    (the footprint of a parameter list), `ParamArray::Call` (a cursor that
    starts at cell 1 and moves by each cast's footprint), the call of `Do`
    with the casts in declared order, and the unwinding that performs the
    write-backs. */
module Folder {
  import opened Amx
  import opened VarArgs
  import opened Host
  import opened Casts

  /** `ParamData<TS ...>::Sum`: the footprints of the list added up. */
  function Footprint(shapes: seq<Shape>): nat
  {
    if |shapes| == 0 then 0 else Size(shapes[0]) + Footprint(shapes[1..])
  }

  lemma {:induction false} FootprintAppend(a: seq<Shape>, b: seq<Shape>)
    ensures Footprint(a + b) == Footprint(a) + Footprint(b)
  {
    if |a| == 0 {
      assert a + b == b;
    } else {
      assert (a + b)[1..] == a[1..] + b;
      FootprintAppend(a[1..], b);
    }
  }

  /** The cursor of `ParamArray::Call`: where each cast is constructed when the
      first one is constructed at `prev`. Cast k sits after the footprints of
      all the casts before it. */
  function Positions(shapes: seq<Shape>, prev: int): (ps: seq<int>)
    ensures |ps| == |shapes|
    ensures forall k :: 0 <= k < |shapes| ==> ps[k] == prev + Footprint(shapes[..k])
    decreases |shapes|
  {
    if |shapes| == 0 then []
    else
      var rest := Positions(shapes[1..], prev + Size(shapes[0]));
      assert forall k :: 0 < k < |shapes| ==>
        Footprint(shapes[..k]) == Size(shapes[0]) + Footprint(shapes[1..][..k - 1])
      by {
        forall k | 0 < k < |shapes|
          ensures Footprint(shapes[..k]) == Size(shapes[0]) + Footprint(shapes[1..][..k - 1])
        {
          FootprintUncons(shapes, k);
        }
      }
      assert Footprint(shapes[..0]) == 0 by {
        assert shapes[..0] == [];
      }
      [prev] + rest
  }

  /** Peeling the first parameter off a non-empty prefix. */
  lemma FootprintUncons(shapes: seq<Shape>, k: int)
    requires 0 < k <= |shapes|
    ensures Footprint(shapes[..k]) == Size(shapes[0]) + Footprint(shapes[1..][..k - 1])
  {
    var pre := shapes[..k];
    assert pre[0] == shapes[0];
    assert pre[1..] == shapes[1..][..k - 1];
  }

  /** Extending a prefix by one parameter adds that parameter's footprint. */
  lemma FootprintSnoc(shapes: seq<Shape>, k: int)
    requires 0 <= k < |shapes|
    ensures Footprint(shapes[..k + 1]) == Footprint(shapes[..k]) + Size(shapes[k])
  {
    assert shapes[..k + 1] == shapes[..k] + [shapes[k]];
    FootprintAppend(shapes[..k], [shapes[k]]);
    assert [shapes[k]][1..] == [];
  }

  /** A prefix never has a larger footprint than the whole list. */
  lemma FootprintPrefixBound(shapes: seq<Shape>, k: int)
    requires 0 <= k <= |shapes|
    ensures Footprint(shapes[..k]) <= Footprint(shapes)
  {
    assert shapes == shapes[..k] + shapes[k..];
    FootprintAppend(shapes[..k], shapes[k..]);
  }

  /** One step of the cursor: the first cast at `prev`, the rest from
      `prev` plus its footprint. */
  lemma PositionsTail(shapes: seq<Shape>, prev: int)
    requires |shapes| > 0
    ensures Positions(shapes, prev) == [prev] + Positions(shapes[1..], prev + Size(shapes[0]))
  {
  }

  /** The cursor `ParamArray<0>::Call` receives once every cast is built. */
  function FinalCursor(shapes: seq<Shape>, prev: int): int
    decreases |shapes|
  {
    if |shapes| == 0 then prev else FinalCursor(shapes[1..], prev + Size(shapes[0]))
  }

  /** The cursor ends exactly `Sum()` cells past where it started. */
  lemma {:induction false} FinalCursorIsFootprint(shapes: seq<Shape>, prev: int)
    ensures FinalCursor(shapes, prev) == prev + Footprint(shapes)
    decreases |shapes|
  {
    if |shapes| > 0 {
      FinalCursorIsFootprint(shapes[1..], prev + Size(shapes[0]));
    }
  }

  /** The first cast is built at `prev` and each later one at the previous
      cursor plus the previous cast's footprint. */
  lemma {:induction false} CursorAdvancesBySize(shapes: seq<Shape>, prev: int)
    ensures |shapes| > 0 ==> Positions(shapes, prev)[0] == prev
    ensures forall k :: 0 < k < |shapes| ==>
      Positions(shapes, prev)[k] == Positions(shapes, prev)[k - 1] + Size(shapes[k - 1])
  {
    forall k | 0 < k < |shapes|
      ensures Positions(shapes, prev)[k] == Positions(shapes, prev)[k - 1] + Size(shapes[k - 1])
    {
      FootprintSnoc(shapes, k - 1);
    }
  }

  /** A zero-footprint parameter (injected or positional) moves no other
      parameter: inserting one leaves every other cast's cell where it was,
      and the inserted one sits where the next parameter starts. */
  lemma {:induction false} ZeroFootprintShiftsNothing(a: seq<Shape>, z: Shape, b: seq<Shape>, prev: int)
    requires Size(z) == 0
    ensures var with := Positions(a + [z] + b, prev);
      && with[..|a|] + with[|a| + 1..] == Positions(a + b, prev)
      && with[|a|] == prev + Footprint(a)
  {
    var s1 := a + [z] + b;
    var s2 := a + b;
    var with := Positions(s1, prev);
    var without := Positions(s2, prev);
    var spliced := with[..|a|] + with[|a| + 1..];
    assert |spliced| == |without|;
    forall k | 0 <= k < |s2|
      ensures spliced[k] == without[k]
    {
      if k < |a| {
        assert spliced[k] == with[k];
        assert s1[..k] == s2[..k];
      } else {
        assert spliced[k] == with[k + 1];
        InsertedPrefix(a, z, b, k - |a|);
      }
    }
    assert s1[..|a|] == a;
  }

  /** The prefix of the list with `z` inserted that reaches j parameters
      into `b` has the footprint of the same prefix without `z`. */
  lemma InsertedPrefix(a: seq<Shape>, z: Shape, b: seq<Shape>, j: int)
    requires Size(z) == 0
    requires 0 <= j < |b|
    ensures Footprint((a + [z] + b)[..|a| + 1 + j]) == Footprint((a + b)[..|a| + j])
  {
    assert (a + [z] + b)[..|a| + 1 + j] == a + ([z] + b[..j]);
    assert (a + b)[..|a| + j] == a + b[..j];
    FootprintAppend(a, [z] + b[..j]);
    FootprintAppend([z], b[..j]);
    FootprintAppend(a, b[..j]);
    assert [z][1..] == [];
  }

  /** Every cast the folder constructs reads only cells that exist. */
  predicate AllReadable(shapes: seq<Shape>, params: seq<int>, prev: int)
  {
    forall k :: 0 <= k < |shapes| ==> Readable(shapes[k], params, Positions(shapes, prev)[k])
  }

  /** A slice carrying `Sum()` argument cells is enough for every cursor-read
      shape: each cast's cells lie inside it. */
  lemma FootprintCoversReads(shapes: seq<Shape>, params: seq<int>)
    requires WellFormed(params)
    requires forall k :: 0 <= k < |shapes| ==> !shapes[k].Positional?
    requires |params| >= 1 + Footprint(shapes)
    ensures AllReadable(shapes, params, 1)
  {
    forall k | 0 <= k < |shapes|
      ensures Readable(shapes[k], params, Positions(shapes, 1)[k])
    {
      FootprintSnoc(shapes, k);
      FootprintPrefixBound(shapes, k + 1);
      assert Positions(shapes, 1)[k] + Size(shapes[k]) <= 1 + Footprint(shapes);
    }
  }

  /** `ParamArray::Call`: builds the casts left to right, each at the cursor
      the previous ones left; an exception stops the building. */
  function Build(shapes: seq<Shape>, vm: Vm, heap: Heap, params: seq<int>, prev: int): (b: Built<Cast>)
    requires AllReadable(shapes, params, prev)
    ensures |b.casts| <= |shapes|
    ensures b.failure.None? ==> |b.casts| == |shapes|
    ensures b.failure.Some? ==>
      && |b.casts| < |shapes|
      && Construct(shapes[|b.casts|], vm, heap, params, Positions(shapes, prev)[|b.casts|]) == Err(b.failure.value)
    ensures forall k :: 0 <= k < |b.casts| ==>
      Construct(shapes[k], vm, heap, params, Positions(shapes, prev)[k]) == Ok(b.casts[k])
    decreases |shapes|
  {
    if |shapes| == 0 then Built([], None)
    else
      ReadableTail(shapes, params, prev);
      var first := Construct(shapes[0], vm, heap, params, prev);
      if first.Err? then Built([], Some(first.error))
      else
        var rest := Build(shapes[1..], vm, heap, params, prev + Size(shapes[0]));
        BuildStep(shapes, vm, heap, params, prev, first.value, rest);
        Built([first.value] + rest.casts, rest.failure)
  }

  /** The first parameter is readable at `prev` and the rest from `prev`
      plus its footprint. */
  lemma ReadableTail(shapes: seq<Shape>, params: seq<int>, prev: int)
    requires |shapes| > 0
    requires AllReadable(shapes, params, prev)
    ensures Readable(shapes[0], params, prev)
    ensures AllReadable(shapes[1..], params, prev + Size(shapes[0]))
  {
    PositionsTail(shapes, prev);
    assert Positions(shapes, prev)[0] == prev;
    forall k | 0 <= k < |shapes| - 1
      ensures Readable(shapes[1..][k], params, Positions(shapes[1..], prev + Size(shapes[0]))[k])
    {
      assert shapes[1..][k] == shapes[k + 1];
      assert Positions(shapes, prev)[k + 1] == Positions(shapes[1..], prev + Size(shapes[0]))[k];
    }
  }

  /** Putting the first cast in front of the casts built from the rest keeps
      every cast at its own cursor, and the failure index shifts by one. */
  lemma BuildStep(shapes: seq<Shape>, vm: Vm, heap: Heap, params: seq<int>, prev: int, first: Cast, rest: Built<Cast>)
    requires |shapes| > 0
    requires AllReadable(shapes, params, prev)
    requires Readable(shapes[0], params, prev) && AllReadable(shapes[1..], params, prev + Size(shapes[0]))
    requires Construct(shapes[0], vm, heap, params, prev) == Ok(first)
    requires |rest.casts| <= |shapes| - 1
    requires rest.failure.Some? ==>
      && |rest.casts| < |shapes| - 1
      && Construct(shapes[1..][|rest.casts|], vm, heap, params, Positions(shapes[1..], prev + Size(shapes[0]))[|rest.casts|]) == Err(rest.failure.value)
    requires forall k :: 0 <= k < |rest.casts| ==>
      Construct(shapes[1..][k], vm, heap, params, Positions(shapes[1..], prev + Size(shapes[0]))[k]) == Ok(rest.casts[k])
    ensures var casts := [first] + rest.casts;
      && (rest.failure.Some? ==>
            Construct(shapes[|casts|], vm, heap, params, Positions(shapes, prev)[|casts|]) == Err(rest.failure.value))
      && forall k :: 0 <= k < |casts| ==>
           Construct(shapes[k], vm, heap, params, Positions(shapes, prev)[k]) == Ok(casts[k])
  {
    var casts := [first] + rest.casts;
    var ps := Positions(shapes, prev);
    var tps := Positions(shapes[1..], prev + Size(shapes[0]));
    PositionsTail(shapes, prev);
    assert forall k :: 0 < k < |shapes| ==> ps[k] == tps[k - 1] && shapes[k] == shapes[1..][k - 1];
    forall k | 0 <= k < |casts|
      ensures Construct(shapes[k], vm, heap, params, ps[k]) == Ok(casts[k])
    {
      if k > 0 {
        assert casts[k] == rest.casts[k - 1];
      }
    }
  }

  /** Converting cast `c` needs a dependency its type's lookup cannot supply. */
  predicate LookupFails(c: Cast, lookup: Lookup)
  {
    c.InjectedCast? && lookup(c.ty).Err?
  }

  /** Evaluates the conversion operators for `Do`'s arguments. Each injected
      cast runs the lookup of its own dependency type; when one fails, its
      exception propagates and `Do` does not run. */
  function ToArgs(casts: seq<Cast>, lookup: Lookup): (r: Result<seq<Arg>>)
    ensures r.Err? <==> exists k :: 0 <= k < |casts| && LookupFails(casts[k], lookup)
    // The exception is that of the first failing injected parameter.
    ensures r.Err? ==> exists k ::
      && 0 <= k < |casts| && LookupFails(casts[k], lookup)
      && r.error == lookup(casts[k].ty).error
      && forall i :: 0 <= i < k ==> !LookupFails(casts[i], lookup)
    ensures r.Ok? ==> |r.value| == |casts| && forall k :: 0 <= k < |casts| ==> r.value[k] == ArgOf(casts[k], lookup)
    decreases |casts|
  {
    if |casts| == 0 then Ok([])
    else if LookupFails(casts[0], lookup) then Err(lookup(casts[0].ty).error)
    else
      var rest := ToArgs(casts[1..], lookup);
      assert forall i :: 0 <= i < |casts| - 1 ==> casts[1..][i] == casts[i + 1];
      if rest.Err? then Err(rest.error)
      else Ok([ArgOf(casts[0], lookup)] + rest.value)
  }

  /** The casts after `Do` returned: each output string holds what `Do` left
      in its buffer. */
  function Edited(casts: seq<Cast>, edits: map<int, string>): (r: seq<Cast>)
    ensures |r| == |casts|
    ensures forall k :: 0 <= k < |casts| ==> (Writes(r[k]) <==> Writes(casts[k]))
    ensures forall k :: 0 <= k < |casts| && casts[k].OutStringCast? ==>
      r[k] == casts[k].(value := if k in edits then edits[k] else casts[k].value)
  {
    seq(|casts|, k requires 0 <= k < |casts| =>
      if casts[k].OutStringCast? && k in edits then casts[k].(value := edits[k]) else casts[k])
  }

  /** The casts are destroyed in reverse construction order. The legacy
      adapters have their own `Edited` and `Unwind` over their own cast type,
      whose destructor also frees; the two families share no code in the
      source either. */
  function Unwind(casts: seq<Cast>, vm: Vm): Vm
    decreases |casts|
  {
    if |casts| == 0 then vm else Unwind(casts[..|casts| - 1], WriteBack(casts[|casts| - 1], vm))
  }

  /** Unwinding casts none of which writes leaves VM memory unchanged. */
  lemma {:induction false} UnwindWithoutWriters(casts: seq<Cast>, vm: Vm)
    requires forall k :: 0 <= k < |casts| ==> !Writes(casts[k])
    ensures Unwind(casts, vm) == vm
    decreases |casts|
  {
    if |casts| > 0 {
      UnwindWithoutWriters(casts[..|casts| - 1], vm);
    }
  }

  /** When only cast j writes, unwinding is that one write-back. */
  lemma {:induction false} UnwindSingleWriter(casts: seq<Cast>, j: int, vm: Vm)
    requires 0 <= j < |casts|
    requires forall k :: 0 <= k < |casts| && k != j ==> !Writes(casts[k])
    ensures Unwind(casts, vm) == WriteBack(casts[j], vm)
    decreases |casts|
  {
    var n := |casts|;
    if j == n - 1 {
      UnwindWithoutWriters(casts[..n - 1], WriteBack(casts[j], vm));
    } else {
      assert casts[..n - 1][j] == casts[j];
      UnwindSingleWriter(casts[..n - 1], j, vm);
    }
  }

  /** The result of one call through the folder: `Do`'s return or the
      exception that escaped, VM memory after every cast was destroyed, and
      the arguments `Do` was given if it ran. */
  datatype Reply = Reply(result: Result<Ret>, vm: Vm, args: Option<seq<Arg>>)

  /** True when the parameter list has no output string. */
  predicate NoOutputs(shapes: seq<Shape>)
  {
    forall k :: 0 <= k < |shapes| ==> !shapes[k].OutString?
  }

  /** `ParamData::Call` with each cast destroyed exactly once, in reverse
      order, and no stale copies: build the casts from cell 1, call `Do` with
      them in declared order, then unwind, so each output string stores what
      `Do` left in it, whether `Do` returned or threw. */
  function Dispatch(shapes: seq<Shape>, vm: Vm, heap: Heap, lookup: Lookup, params: seq<int>, host: HostFn): (r: Reply)
    requires AllReadable(shapes, params, 1)
    ensures var b := Build(shapes, vm, heap, params, 1);
      && (r.args.Some? <==> b.failure.None? && ToArgs(b.casts, lookup).Ok?)
      && (r.args.Some? ==> r.args.value == ToArgs(b.casts, lookup).value)
      && (r.args.None? ==> r.result == Err(if b.failure.Some? then b.failure.value else ToArgs(b.casts, lookup).error))
    ensures r.result.Ok? <==> r.args.Some? && host(r.args.value).Done?
    ensures r.result.Ok? ==> r.result.value == host(r.args.value).ret
    ensures r.result.Err? && r.args.Some? ==> host(r.args.value).Threw? && host(r.args.value).e == r.result.error
  {
    var b := Build(shapes, vm, heap, params, 1);
    if b.failure.Some? then Reply(Err(b.failure.value), Unwind(b.casts, vm), None)
    else
      var args := ToArgs(b.casts, lookup);
      if args.Err? then Reply(Err(args.error), Unwind(b.casts, vm), None)
      else
        match host(args.value)
        case Threw(e, edits) => Reply(Err(e), Unwind(Edited(b.casts, edits), vm), Some(args.value))
        case Done(ret, edits) => Reply(Ok(ret), Unwind(Edited(b.casts, edits), vm), Some(args.value))
  }

  /** `Do` receives one argument per declared parameter, in declared order,
      each converted from the cast built at that parameter's cursor. */
  lemma DispatchArgsInOrder(shapes: seq<Shape>, vm: Vm, heap: Heap, lookup: Lookup, params: seq<int>, host: HostFn)
    requires AllReadable(shapes, params, 1)
    ensures var r := Dispatch(shapes, vm, heap, lookup, params, host);
      r.args.Some? ==>
        && |r.args.value| == |shapes|
        && forall k :: 0 <= k < |shapes| ==>
             var c := Construct(shapes[k], vm, heap, params, Positions(shapes, 1)[k]);
             c.Ok? && r.args.value[k] == ArgOf(c.value, lookup)
  {
  }

  /** Two injected parameters of different dependency types are looked up
      separately: each receives its own handle, and when only the second
      type is missing, its exception is the call's and `Do` never runs. */
  lemma EachDependencyLookedUp()
    ensures var shapes := [Injected(0, false), Injected(1, true)];
      var vm := Vm(0, map[]);
      var heap := Heap((n: nat) => true, "");
      var params := [0];
      var host: HostFn := (args: seq<Arg>) => Done(Void, map[]);
      var both: Lookup := (t: TypeId) => if t == 0 then Ok(5) else Ok(7);
      var firstOnly: Lookup := (t: TypeId) => if t == 0 then Ok(5) else Err(OtherStd);
      && AllReadable(shapes, params, 1)
      && Dispatch(shapes, vm, heap, both, params, host).args == Some([Handle(5), Handle(7)])
      && Dispatch(shapes, vm, heap, firstOnly, params, host).args.None?
      && Dispatch(shapes, vm, heap, firstOnly, params, host).result == Err(OtherStd)
  {
    var shapes := [Injected(0, false), Injected(1, true)];
    var vm := Vm(0, map[]);
    var heap := Heap((n: nat) => true, "");
    var params := [0];
    var both: Lookup := (t: TypeId) => if t == 0 then Ok(5) else Ok(7);
    var firstOnly: Lookup := (t: TypeId) => if t == 0 then Ok(5) else Err(OtherStd);
    assert Positions(shapes, 1) == [1, 1] by {
      assert shapes[..0] == [] && shapes[..1] == [Injected(0, false)];
      assert [Injected(0, false)][1..] == [];
    }
    var b := Build(shapes, vm, heap, params, 1);
    assert b.casts == [InjectedCast(0), InjectedCast(1)];
    assert ToArgs(b.casts, both).value == [Handle(5), Handle(7)];
    assert LookupFails(b.casts[1], firstOnly);
  }

  /** A parameter list without an output string leaves VM memory exactly as
      it was, whether `Do` returns, throws, or is never reached. */
  lemma {:induction false} NoOutputsLeaveMemory(shapes: seq<Shape>, vm: Vm, heap: Heap, lookup: Lookup, params: seq<int>, host: HostFn)
    requires AllReadable(shapes, params, 1)
    requires NoOutputs(shapes)
    ensures Dispatch(shapes, vm, heap, lookup, params, host).vm == vm
  {
    var b := Build(shapes, vm, heap, params, 1);
    assert forall k :: 0 <= k < |b.casts| ==> !Writes(b.casts[k]) by {
      forall k | 0 <= k < |b.casts|
        ensures !Writes(b.casts[k])
      {
        assert Construct(shapes[k], vm, heap, params, Positions(shapes, 1)[k]) == Ok(b.casts[k]);
      }
    }
    UnwindWithoutWriters(b.casts, vm);
    if b.failure.None? && ToArgs(b.casts, lookup).Ok? {
      var args := ToArgs(b.casts, lookup).value;
      UnwindWithoutWriters(Edited(b.casts, host(args).edits), vm);
    }
  }

  /** Only cast j writes among the built casts when only parameter j is an
      output string. */
  lemma BuiltWritersAreOutputs(shapes: seq<Shape>, vm: Vm, heap: Heap, params: seq<int>, j: int)
    requires AllReadable(shapes, params, 1)
    requires forall k :: 0 <= k < |shapes| && k != j ==> !shapes[k].OutString?
    ensures var b := Build(shapes, vm, heap, params, 1);
      forall k :: 0 <= k < |b.casts| && k != j ==> !Writes(b.casts[k])
  {
    var b := Build(shapes, vm, heap, params, 1);
    forall k | 0 <= k < |b.casts| && k != j
      ensures !Writes(b.casts[k])
    {
      assert Construct(shapes[k], vm, heap, params, Positions(shapes, 1)[k]) == Ok(b.casts[k]);
    }
  }

  /** Editing keeps the other casts silent, so unwinding is cast j's write-back. */
  lemma EditedSingleWriter(casts: seq<Cast>, edits: map<int, string>, j: int, vm: Vm)
    requires 0 <= j < |casts|
    requires forall k :: 0 <= k < |casts| && k != j ==> !Writes(casts[k])
    ensures Unwind(Edited(casts, edits), vm) == WriteBack(Edited(casts, edits)[j], vm)
  {
    UnwindSingleWriter(Edited(casts, edits), j, vm);
  }

  /** A call that reached `Do`: every cast was built and converted, and
      memory is what unwinding the edited casts leaves, however `Do` ended. */
  lemma DispatchRanDo(shapes: seq<Shape>, vm: Vm, heap: Heap, lookup: Lookup, params: seq<int>, host: HostFn)
    requires AllReadable(shapes, params, 1)
    ensures var b := Build(shapes, vm, heap, params, 1);
      var r := Dispatch(shapes, vm, heap, lookup, params, host);
      r.args.Some? ==>
      && b.failure.None?
      && ToArgs(b.casts, lookup).Ok?
      && r.args == Some(ToArgs(b.casts, lookup).value)
      && r.vm == Unwind(Edited(b.casts, host(r.args.value).edits), vm)
  {
  }

  /** The cast built for an output-string parameter with a positive
      capacity, as the folder placed it. */
  lemma BuiltOutString(shapes: seq<Shape>, vm: Vm, heap: Heap, params: seq<int>, j: int)
    requires AllReadable(shapes, params, 1)
    requires 0 <= j < |shapes| && shapes[j].OutString?
    requires params[Positions(shapes, 1)[j] + 1] > 0
    ensures var b := Build(shapes, vm, heap, params, 1);
      var p := Positions(shapes, 1)[j];
      j < |b.casts| ==>
        b.casts[j].OutStringCast? && b.casts[j].len == params[p + 1] && b.casts[j].addr == GetAddr(vm, params[p])
  {
    var b := Build(shapes, vm, heap, params, 1);
    if j < |b.casts| {
      assert Construct(OutString, vm, heap, params, Positions(shapes, 1)[j]) == Ok(b.casts[j]);
    }
  }

  /** With a single output-string parameter, once `Do` has run (and
      returned or thrown) the VM buffer holds what `Do` left in the output
      string, cut to the declared capacity; a buffer `Do` did not touch keeps
      its old contents, cut the same way. */
  lemma OutputReflectsEdit(shapes: seq<Shape>, vm: Vm, heap: Heap, lookup: Lookup, params: seq<int>, host: HostFn, j: int)
    requires AllReadable(shapes, params, 1)
    requires 0 <= j < |shapes| && shapes[j].OutString?
    requires forall k :: 0 <= k < |shapes| && k != j ==> !shapes[k].OutString?
    requires Dispatch(shapes, vm, heap, lookup, params, host).args.Some?
    requires params[Positions(shapes, 1)[j] + 1] > 0
    ensures var r := Dispatch(shapes, vm, heap, lookup, params, host);
      var p := Positions(shapes, 1)[j];
      var edits := host(r.args.value).edits;
      var addr := GetAddr(vm, params[p]);
      StringAt(r.vm, addr) == Truncate(if j in edits then edits[j] else StringAt(vm, addr), params[p + 1])
  {
    var b := Build(shapes, vm, heap, params, 1);
    var casts := b.casts;
    var r := Dispatch(shapes, vm, heap, lookup, params, host);
    var edits := host(r.args.value).edits;
    DispatchRanDo(shapes, vm, heap, lookup, params, host);
    assert b.failure.None? && |casts| == |shapes|;
    assert r.vm == Unwind(Edited(casts, edits), vm);
    BuiltWritersAreOutputs(shapes, vm, heap, params, j);
    EditedSingleWriter(casts, edits, j, vm);
    BuiltOutString(shapes, vm, heap, params, j);
    var c := casts[j];
    assert c.OutStringCast? && c.addr == GetAddr(vm, params[Positions(shapes, 1)[j]]);
    var e := Edited(casts, edits)[j];
    if j in edits {
      assert e == c.(value := edits[j]);
      assert r.vm == SetString(vm, c.addr, edits[j], c.len);
    } else {
      assert e == c;
      assert c.value == Truncate(StringAt(vm, c.addr), c.len) by {
        assert Construct(OutString, vm, heap, params, Positions(shapes, 1)[j]) == Ok(c);
      }
      TruncateIdempotent(StringAt(vm, c.addr), c.len);
    }
  }

  /** What the nested `ParamArray::Call` frames destroy after `Do` returns,
      innermost frame first: the frame below the innermost holds unedited
      copies of casts 0 .. N-2, the next one copies of casts 0 .. N-3, and so
      on, because each frame passes the casts it holds on by value. */
  function StaleUnwind(casts: seq<Cast>, vm: Vm): Vm
    decreases |casts|
  {
    if |casts| <= 1 then vm
    else
      var held := casts[..|casts| - 1];
      StaleUnwind(held, Unwind(held, vm))
  }

  /** `ParamData::Call` as the source writes it: the innermost frame's
      casts are destroyed first (edited by `Do` when it ran), and the stale
      copies held by the outer frames after them. This holds on every path,
      since a return and an exception leave the frames in the same order. */
  function DispatchAsWritten(shapes: seq<Shape>, vm: Vm, heap: Heap, lookup: Lookup, params: seq<int>, host: HostFn): (r: Reply)
    requires AllReadable(shapes, params, 1)
    ensures r.result == Dispatch(shapes, vm, heap, lookup, params, host).result
    ensures r.args == Dispatch(shapes, vm, heap, lookup, params, host).args
  {
    var r := Dispatch(shapes, vm, heap, lookup, params, host);
    var b := Build(shapes, vm, heap, params, 1);
    r.(vm := StaleUnwind(b.casts, r.vm))
  }

  /** Stale copies of casts that never write leave memory alone. */
  lemma {:induction false} StaleUnwindWithoutWriters(casts: seq<Cast>, vm: Vm)
    requires forall k :: 0 <= k < |casts| - 1 ==> !Writes(casts[k])
    ensures StaleUnwind(casts, vm) == vm
    decreases |casts|
  {
    if |casts| > 1 {
      var held := casts[..|casts| - 1];
      UnwindWithoutWriters(held, vm);
      StaleUnwindWithoutWriters(held, vm);
    }
  }

  /** The stale copies only ever hold parameters before the last one, so
      when no earlier parameter is an output string the source's folder
      leaves memory exactly as the intended one does. */
  lemma LastOutputIsNotStale(shapes: seq<Shape>, vm: Vm, heap: Heap, lookup: Lookup, params: seq<int>, host: HostFn)
    requires AllReadable(shapes, params, 1)
    requires forall k :: 0 <= k < |shapes| - 1 ==> !shapes[k].OutString?
    ensures DispatchAsWritten(shapes, vm, heap, lookup, params, host) == Dispatch(shapes, vm, heap, lookup, params, host)
  {
    var b := Build(shapes, vm, heap, params, 1);
    forall k | 0 <= k < |b.casts| - 1
      ensures !Writes(b.casts[k])
    {
      assert Construct(shapes[k], vm, heap, params, Positions(shapes, 1)[k]) == Ok(b.casts[k]);
    }
    StaleUnwindWithoutWriters(b.casts, Dispatch(shapes, vm, heap, lookup, params, host).vm);
  }

  /** An output string followed by a value: `Do` writes "hi" into the
      output, the source leaves the old "abc" in the VM buffer, and the
      intended folder stores "hi". */
  lemma StaleCopyOverwritesOutput()
    ensures var shapes := [OutString, Plain(ByValue)];
      var vm := Vm(0, map[100 := "abc"]);
      var heap := Heap((n: nat) => true, "");
      var params := [12, 100, 8, 7];
      var host: HostFn := (args: seq<Arg>) => Done(Void, map[0 := "hi"]);
    var found: Lookup := (t: TypeId) => Ok(0);
      var found: Lookup := (t: TypeId) => Ok(0);
      && AllReadable(shapes, params, 1)
      && StringAt(DispatchAsWritten(shapes, vm, heap, found, params, host).vm, 100) == "abc"
      && StringAt(Dispatch(shapes, vm, heap, found, params, host).vm, 100) == "hi"
  {
    var shapes := [OutString, Plain(ByValue)];
    var vm := Vm(0, map[100 := "abc"]);
    var heap := Heap((n: nat) => true, "");
    var params := [12, 100, 8, 7];
    var host: HostFn := (args: seq<Arg>) => Done(Void, map[0 := "hi"]);
    var found: Lookup := (t: TypeId) => Ok(0);
    var ps := Positions(shapes, 1);
    assert shapes[..0] == [] && shapes[..1] == [OutString];
    assert Footprint([OutString]) == 2 by {
      assert [OutString][1..] == [];
    }
    assert ps == [1, 3];
    var b := Build(shapes, vm, heap, params, 1);
    var c0 := OutStringCast(8, 100, "abc");
    var c1 := ValueCast(7);
    assert b.casts == [c0, c1];
    var edited := Edited(b.casts, map[0 := "hi"]);
    assert edited == [c0.(value := "hi"), c1];
    var afterDo := Unwind(edited, vm);
    assert StringAt(afterDo, 100) == "hi" by {
      UnwindSingleWriter(edited, 0, vm);
    }
    assert b.casts[..1] == [c0];
    assert StringAt(StaleUnwind(b.casts, afterDo), 100) == "abc" by {
      assert StaleUnwind(b.casts, afterDo) == StaleUnwind([c0], Unwind([c0], afterDo));
      UnwindSingleWriter([c0], 0, afterDo);
    }
  }
  /** A value followed by an output string, with `Do` writing "hi" and then
      throwing: the output cast is destroyed during unwinding and stores
      "hi", both in the source's folder and in the intended one. */
  lemma ThrowKeepsOutputWrite()
    ensures var shapes := [Plain(ByValue), OutString];
      var vm := Vm(0, map[100 := "abc"]);
      var heap := Heap((n: nat) => true, "");
      var params := [12, 7, 100, 8];
      var host: HostFn := (args: seq<Arg>) => Threw(OtherStd, map[1 := "hi"]);
    var found: Lookup := (t: TypeId) => Ok(0);
      var found: Lookup := (t: TypeId) => Ok(0);
      && AllReadable(shapes, params, 1)
      && Dispatch(shapes, vm, heap, found, params, host).result == Err(OtherStd)
      && StringAt(Dispatch(shapes, vm, heap, found, params, host).vm, 100) == "hi"
      && StringAt(DispatchAsWritten(shapes, vm, heap, found, params, host).vm, 100) == "hi"
  {
    var shapes := [Plain(ByValue), OutString];
    var vm := Vm(0, map[100 := "abc"]);
    var heap := Heap((n: nat) => true, "");
    var params := [12, 7, 100, 8];
    var host: HostFn := (args: seq<Arg>) => Threw(OtherStd, map[1 := "hi"]);
    var found: Lookup := (t: TypeId) => Ok(0);
    assert shapes[..0] == [] && shapes[..1] == [Plain(ByValue)];
    assert Footprint([Plain(ByValue)]) == 1 by {
      assert [Plain(ByValue)][1..] == [];
    }
    assert Positions(shapes, 1) == [1, 2];
    var b := Build(shapes, vm, heap, params, 1);
    assert b.casts == [ValueCast(7), OutStringCast(8, 100, "abc")];
    assert Dispatch(shapes, vm, heap, found, params, host).args.Some?;
    OutputReflectsEdit(shapes, vm, heap, found, params, host, 1);
    LastOutputIsNotStale(shapes, vm, heap, found, params, host);
  }
}

=== FILE: hook.dfy ===
/** Native hooks of the `plugin_natives` namespace: the hook's call operator,
    which runs `Do` or, on a re-entrant call, the original native with the
    hook taken out; and `ScopedCall`, which removes the hook for its
    lifetime and reinstalls it when destroyed. The subhook trampoline is an
    `installed` flag; `NativeHookBase::Recursing()` is a flag that each call
    reports and then flips. */
module Hooks {
  /** One hook's state. */
  datatype Hook = Hook(installed: bool, recursing: bool)

  /** subhook's `Remove`: reports whether a hook was in place to remove. */
  function Remove(h: Hook): (Hook, bool)
  {
    (h.(installed := false), h.installed)
  }

  function Install(h: Hook): Hook
  {
    h.(installed := true)
  }

  /** `Recursing()`: the current flag, and the state with the flag flipped. */
  function Recursing(h: Hook): (bool, Hook)
  {
    (h.recursing, h.(recursing := !h.recursing))
  }

  /** What a call through the hook ran: the replacement's `Do`, or the
      original native (noting whether the hook was in place meanwhile). */
  datatype Event = RanDo | RanOriginal(hookInstalled: bool)

  /** The re-entrant branch of the call operator: under a
      `ScopedHookRemove` the original runs with the hook out, then the hook
      is restored if it had been removed. */
  function Reentrant(h: Hook): (r: (Hook, Event))
    requires h.recursing
    ensures r.0 == h
    ensures r.1 == RanOriginal(false)
  {
    var (_, h1) := Recursing(h);
    var (h2, removed) := Remove(h1);
    var ev := RanOriginal(h2.installed);
    var h3 := if removed then Install(h2) else h2;
    var (_, h4) := Recursing(h3);
    (h4, ev)
  }

  /** `nested` calls back into the hook, made by `Do` while the flag is set. */
  function NestedCalls(h: Hook, nested: nat): (r: (Hook, seq<Event>))
    requires h.recursing
    ensures r.0 == h
    ensures |r.1| == nested
    ensures forall k :: 0 <= k < nested ==> r.1[k] == RanOriginal(false)
    decreases nested
  {
    if nested == 0 then (h, [])
    else
      var (h1, ev) := Reentrant(h);
      var (h2, evs) := NestedCalls(h1, nested - 1);
      (h2, [ev] + evs)
  }

  /** The hook's call operator as written, where `Do` calls back into the
      hook `nested` times and then returns or, when `doThrows`, throws. A
      first-level call runs `Do`, and every call `Do` makes back into the
      hook reaches the original native with the hook removed. The second
      `Recursing()` follows the `if`, so an exception from `Do` skips it. */
  function InvokeAsWritten(h: Hook, nested: nat, doThrows: bool): (r: (Hook, seq<Event>))
    ensures h.recursing ==> r == (h, [RanOriginal(false)])
    ensures !h.recursing ==> |r.1| == nested + 1 && r.1[0] == RanDo
    ensures !h.recursing ==> forall k :: 1 <= k <= nested ==> r.1[k] == RanOriginal(false)
    ensures !doThrows ==> r.0 == h
    ensures doThrows && !h.recursing ==> r.0 == h.(recursing := true)
  {
    if h.recursing then
      var (h1, ev) := Reentrant(h);
      (h1, [ev])
    else
      var (_, h1) := Recursing(h);
      var (h2, evs) := NestedCalls(h1, nested);
      if doThrows then (h2, [RanDo] + evs)
      else
        var (_, h3) := Recursing(h2);
        (h3, [RanDo] + evs)
  }

  /** One exception from `Do` leaves the flag set for good: every later
      call, however it ends, takes the re-entrant branch, so the original
      runs in place of `Do` and the flag stays stuck. */
  lemma ThrowDisablesHook(h: Hook, nested: nat, later: nat, laterThrows: bool)
    requires !h.recursing
    ensures var stuck := InvokeAsWritten(h, nested, true).0;
      && stuck.recursing
      && InvokeAsWritten(stuck, later, laterThrows) == (stuck, [RanOriginal(false)])
  {
  }

  /** The call operator with the evident intent: the second `Recursing()`
      runs however `Do` ends (as a scope guard would make it), so the hook's
      state is the same afterwards as before. */
  function Invoke(h: Hook, nested: nat, doThrows: bool): (r: (Hook, seq<Event>))
    ensures r.0 == h
    ensures r.1 == InvokeAsWritten(h, nested, doThrows).1
  {
    if h.recursing then
      var (h1, ev) := Reentrant(h);
      (h1, [ev])
    else
      var (_, h1) := Recursing(h);
      var (h2, evs) := NestedCalls(h1, nested);
      var (_, h3) := Recursing(h2);
      (h3, [RanDo] + evs)
  }

  /** After a call whose `Do` threw, the next first-level call runs `Do`
      again. */
  lemma HookRecoversAfterThrow(h: Hook, nested: nat, later: nat, laterThrows: bool)
    requires !h.recursing
    ensures Invoke(Invoke(h, nested, true).0, later, laterThrows).1[0] == RanDo
  {
  }

  /** A `ScopedCall`: the original it calls and whether it removed the hook. */
  datatype ScopedCall = ScopedCall(original: nat, removed: bool)

  /** The constructor (reached through `operator*`): `removed_` is what
      `Remove` reported. */
  function Open(h: Hook, original: nat): (r: (Hook, ScopedCall))
    ensures !r.0.installed && r.0.recursing == h.recursing
    ensures r.1.original == original
    ensures r.1.removed <==> h.installed
  {
    var (h1, removed) := Remove(h);
    (h1, ScopedCall(original, removed))
  }

  /** The destructor: reinstalls exactly when this object removed the hook. */
  function Close(h: Hook, s: ScopedCall): (r: Hook)
    ensures r.recursing == h.recursing
    ensures r.installed <==> h.installed || s.removed
  {
    if s.removed then Install(h) else h
  }

  /** `ScopedCall::operator()`: the original, called directly, with no
      recursion bookkeeping. */
  function CallThrough(h: Hook, s: ScopedCall): (r: (Hook, Event))
    ensures r.0 == h
    ensures r.1 == RanOriginal(h.installed)
  {
    (h, RanOriginal(h.installed))
  }

  /** A scope opened on a hook, called through and closed leaves the hook
      as it was, and the original ran with the hook out. */
  lemma ScopeRoundTrip(h: Hook, original: nat)
    ensures var (h1, s) := Open(h, original);
      var (h2, ev) := CallThrough(h1, s);
      ev == RanOriginal(false) && Close(h2, s) == h
  {
  }

  /** The move constructor: the new object takes over `removed_` and the
      moved-from one is cleared. The result is (moved-from, new). */
  function Move(s: ScopedCall): (r: (ScopedCall, ScopedCall))
    ensures r.1 == s
    ensures r.0.original == s.original && !r.0.removed
  {
    (s.(removed := false), s)
  }

  /** The defaulted copy constructor: both objects hold the same `removed_`. */
  function Copy(s: ScopedCall): (r: (ScopedCall, ScopedCall))
    ensures r.0 == s && r.1 == s
  {
    (s, s)
  }

  /** The objects a chain of `k` moves leaves behind: every moved-from
      object, then the final owner. */
  function MoveChain(s: ScopedCall, k: nat): (objs: seq<ScopedCall>)
    ensures |objs| == k + 1
    decreases k
  {
    if k == 0 then [s]
    else
      var (from, to) := Move(s);
      [from] + MoveChain(to, k - 1)
  }

  /** How many of these objects reinstall the hook when destroyed. */
  function Reinstalls(objs: seq<ScopedCall>): nat
    decreases |objs|
  {
    if |objs| == 0 then 0
    else (if objs[0].removed then 1 else 0) + Reinstalls(objs[1..])
  }

  /** However many times it is moved, one removal is undone at most once:
      only the final owner reinstalls. */
  lemma {:induction false} MovesReinstallAtMostOnce(s: ScopedCall, k: nat)
    ensures Reinstalls(MoveChain(s, k)) == (if s.removed then 1 else 0)
    ensures MoveChain(s, k)[k] == s
    decreases k
  {
    if k > 0 {
      var (from, to) := Move(s);
      MovesReinstallAtMostOnce(to, k - 1);
      assert MoveChain(s, k)[1..] == MoveChain(to, k - 1);
    }
  }

  /** A copy is not a move: both copies of an object that removed the hook
      reinstall it, so the hook is installed twice for one removal. */
  lemma CopyReinstallsTwice(s: ScopedCall)
    requires s.removed
    ensures Reinstalls([Copy(s).0, Copy(s).1]) == 2
  {
    var objs := [Copy(s).0, Copy(s).1];
    assert objs[1..] == [s] && [s][1..] == [];
    assert Reinstalls([s]) == 1;
  }
}

=== FILE: host.dfy ===
/** What a host function sees and answers: the converted arguments handed to
    its `Do`, the value it returns, and the contents it leaves in output
    buffers. */
module Host {
  import opened Amx
  import opened VarArgs

  /** One converted argument as `Do` receives it. */
  datatype Arg =
    | Word(bits: int)          // the bits of one cell, reinterpreted as the host type
    | Address(p: int)          // a translated VM address
    | VarList(va: VarArgs)     // a captured variadic tail
    | OutText(text: string)    // an output buffer, before `Do` writes to it
    | InText(text: string)     // a private copy of an input string
    | Handle(v: int)           // an injected dependency

  /** `Do`'s return: nothing for a `void` host function, otherwise the bits
      of its result as one cell. */
  datatype Ret = Void | Bits(cell: int)

  /** How `Do` finished: it returned or it threw. Either way `edits[k]` is
      what it left in the output buffer of argument k (buffers it did not
      touch are absent): a write made before a `throw` is not undone. */
  datatype HostOutcome =
    | Done(ret: Ret, edits: map<int, string>)
    | Threw(e: Exception, edits: map<int, string>)

  /** A host implementation, as a function of the arguments it is given. */
  type HostFn = seq<Arg> -> HostOutcome

  /** The cell a `CallDoInner` hands back to the VM: 1 for a `void` function,
      the result's own bits otherwise. */
  function ReturnCell(r: Ret): int
  {
    match r
    case Void => 1
    case Bits(b) => b
  }
}

=== FILE: legacy.dfy ===
/** The fixed-slot casts of the `plugin_natives` namespace, the ones the
    per-arity adapters and hooks build: value, pointer, varargs, and the raw
    `char *` output and `char const *` input strings with their heap buffers. */
module LegacyCasts {
  import opened Amx
  import opened VarArgs
  import opened Host

  datatype Shape =
    | Value                         // T
    | ConstValue                    // T const
    | Pointer                       // T *
    | ConstPointer                  // T const *
    | VarArgsShape(isConst: bool)   // varargs_t, varargs_t const
    | CharOut                       // char *
    | CharIn                        // char const *

  /** A constructed cast. The string casts record whether `value_` points at
      a block `malloc` returned (`owned`) or at the member `fake_`. */
  datatype Cast =
    | ValueCast(bits: int)
    | PointerCast(addr: int)
    | VarArgsCast(va: VarArgs)
    | CharOutCast(len: int, addr: int, buf: string, owned: bool)
    | CharInCast(text: string, owned: bool)

  /** The stack cells constructing `s` at `idx` reads all exist. */
  predicate Readable(s: Shape, params: seq<int>, idx: int)
  {
    match s
    case VarArgsShape(_) => WellFormed(params) && 0 <= idx <= ArgWords(params) + 1
    case CharOut => 0 <= idx && idx + 1 < |params|
    case _ => 0 <= idx < |params|
  }

  /** `ParamCast<char *>` as written: the capacity is the next cell. A
      negative one is a `length_error`; a positive one gets a fresh `malloc`
      block of that many bytes, whose contents are never read from the VM
      (the `amx_GetString` call is commented out); 0 uses `fake_`. */
  function ConstructCharOutAsWritten(vm: Vm, heap: Heap, params: seq<int>, idx: int): (r: Result<Cast>)
    requires 0 <= idx && idx + 1 < |params|
    ensures params[idx + 1] < 0 ==> r == Err(LengthError)
    ensures params[idx + 1] == 0 ==> r == Ok(CharOutCast(0, 0, "", false))
    ensures params[idx + 1] > 0 ==>
      r == if heap.grants(params[idx + 1])
           then Ok(CharOutCast(params[idx + 1], GetAddr(vm, params[idx]), heap.junk, true))
           else Err(BadAlloc)
  {
    var len := params[idx + 1];
    if len < 0 then Err(LengthError)
    else if len != 0 then
      var addr := GetAddr(vm, params[idx]);
      if !heap.grants(len) then Err(BadAlloc)
      else Ok(CharOutCast(len, addr, heap.junk, true))
    else Ok(CharOutCast(0, 0, "", false))
  }

  /** A buffer `Do` leaves alone is written back as whatever the fresh block
      held: the VM string is replaced by the allocator's leftovers, whatever
      it was before. */
  lemma UnreadBufferWritesJunk(vm: Vm, heap: Heap, params: seq<int>, idx: int)
    requires 0 <= idx && idx + 1 < |params|
    requires params[idx + 1] > 0 && heap.grants(params[idx + 1])
    ensures var c := ConstructCharOutAsWritten(vm, heap, params, idx).value;
      && c.addr == GetAddr(vm, params[idx])
      && StringAt(WriteBack(c, vm), c.addr) == Truncate(heap.junk, params[idx + 1])
  {
  }

  /** `ParamCast<char *>` with the evident intent, the way the newer
      `std::string *` cast reads its buffer: as above, but a positive
      capacity also copies the VM string into the block, cut to fit. */
  function ConstructCharOut(vm: Vm, heap: Heap, params: seq<int>, idx: int): (r: Result<Cast>)
    requires 0 <= idx && idx + 1 < |params|
    ensures r.Err? <==> ConstructCharOutAsWritten(vm, heap, params, idx).Err?
    ensures r.Err? ==> r == ConstructCharOutAsWritten(vm, heap, params, idx)
    ensures params[idx + 1] == 0 ==> r == Ok(CharOutCast(0, 0, "", false))
    ensures params[idx + 1] > 0 && r.Ok? ==>
      var addr := GetAddr(vm, params[idx]);
      r.value == CharOutCast(params[idx + 1], addr, Truncate(StringAt(vm, addr), params[idx + 1]), true)
  {
    var len := params[idx + 1];
    if len < 0 then Err(LengthError)
    else if len != 0 then
      var addr := GetAddr(vm, params[idx]);
      if !heap.grants(len) then Err(BadAlloc)
      else Ok(CharOutCast(len, addr, GetString(vm, addr, len), true))
    else Ok(CharOutCast(0, 0, "", false))
  }

  /** With the VM string read in, a buffer `Do` leaves alone is stored back
      cut to its capacity, and one that already fitted changes nothing. */
  lemma {:induction false} CharOutRoundTrip(vm: Vm, heap: Heap, params: seq<int>, idx: int)
    requires 0 <= idx && idx + 1 < |params|
    requires params[idx + 1] > 0 && heap.grants(params[idx + 1])
    ensures var c := ConstructCharOut(vm, heap, params, idx).value;
      && StringAt(WriteBack(c, vm), c.addr) == Truncate(StringAt(vm, c.addr), c.len)
      && (|StringAt(vm, c.addr)| < c.len ==> forall q :: StringAt(WriteBack(c, vm), q) == StringAt(vm, q))
  {
    var c := ConstructCharOut(vm, heap, params, idx).value;
    TruncateIdempotent(StringAt(vm, c.addr), c.len);
  }

  /** `ParamCast<char const *>`: the length comes from `amx_StrLen`; a
      non-empty string is copied whole into a block of `len + 1` bytes, an
      empty one uses `fake_`. */
  function ConstructCharIn(vm: Vm, heap: Heap, params: seq<int>, idx: int): (r: Result<Cast>)
    requires 0 <= idx < |params|
    ensures var text := StringAt(vm, GetAddr(vm, params[idx]));
      r == if |text| == 0 then Ok(CharInCast("", false))
           else if heap.grants(|text| + 1) then Ok(CharInCast(text, true))
           else Err(BadAlloc)
  {
    var addr := GetAddr(vm, params[idx]);
    var len := StrLen(vm, addr);
    if len != 0 then
      if !heap.grants(len + 1) then Err(BadAlloc)
      else Ok(CharInCast(GetString(vm, addr, len + 1), true))
    else Ok(CharInCast("", false))
  }

  /** Which `ParamCast<char *>` constructor a build uses: the source's, which
      leaves the fresh block unread, or the corrected one, which reads the VM
      string into it. Every other shape is built the same way by both. */
  datatype Variant = AsWritten | Corrected

  /** The constructor of `plugin_natives::ParamCast<T>` at index `idx`. */
  function Construct(v: Variant, s: Shape, vm: Vm, heap: Heap, params: seq<int>, idx: int): (r: Result<Cast>)
    requires Readable(s, params, idx)
    ensures r.Err? ==> (s.CharOut? && r.error == LengthError) || r.error == BadAlloc
    // `*(T *)&params[idx]`: the cell's own bits.
    ensures s.Value? || s.ConstValue? ==> r == Ok(ValueCast(params[idx]))
    ensures s.Pointer? || s.ConstPointer? ==> r == Ok(PointerCast(GetAddr(vm, params[idx])))
    ensures s.VarArgsShape? ==> (r.Ok? <==> Capture(vm, heap, params, idx).Ok?)
    ensures s.VarArgsShape? && r.Ok? ==> r.value == VarArgsCast(Capture(vm, heap, params, idx).value)
    ensures s.CharOut? && v.AsWritten? ==> r == ConstructCharOutAsWritten(vm, heap, params, idx)
    ensures s.CharOut? && v.Corrected? ==> r == ConstructCharOut(vm, heap, params, idx)
    ensures s.CharIn? ==> r == ConstructCharIn(vm, heap, params, idx)
  {
    match s
    case Value => Ok(ValueCast(params[idx]))
    case ConstValue => Ok(ValueCast(params[idx]))
    case Pointer => Ok(PointerCast(GetAddr(vm, params[idx])))
    // The source assigns `*(T *)&addr` to its `T *` member; the address is what it evidently means.
    case ConstPointer => Ok(PointerCast(GetAddr(vm, params[idx])))
    case VarArgsShape(_) =>
      var va := Capture(vm, heap, params, idx);
      if va.Err? then Err(va.error) else Ok(VarArgsCast(va.value))
    case CharOut =>
      if v.AsWritten? then ConstructCharOutAsWritten(vm, heap, params, idx) else ConstructCharOut(vm, heap, params, idx)
    case CharIn => ConstructCharIn(vm, heap, params, idx)
  }

  /** A `char *` at index k takes its capacity from the very cell a value
      parameter at index k + 1 reads: the length is an ordinary parameter. */
  lemma CharOutSharesLengthCell(v: Variant, vm: Vm, heap: Heap, params: seq<int>, k: int)
    requires 0 <= k && k + 1 < |params|
    requires params[k + 1] > 0 && heap.grants(params[k + 1])
    ensures Construct(v, CharOut, vm, heap, params, k).value.len == Construct(v, Value, vm, heap, params, k + 1).value.bits
  {
  }

  /** What a destructor did: VM memory after any write-back, whether it
      called `free`, and whether the pointer it freed did not come from
      `malloc`. */
  datatype Teardown = Teardown(vm: Vm, freed: bool, badFree: bool)

  /** The write-back every destructor performs: a `char *` with a positive
      capacity stores its buffer, within that capacity, at the address read
      at construction. */
  function WriteBack(c: Cast, vm: Vm): Vm
  {
    if Writes(c) then SetString(vm, c.addr, c.buf, c.len) else vm
  }

  /** Only a `char *` with a positive capacity writes back. */
  predicate Writes(c: Cast)
  {
    c.CharOutCast? && c.len > 0
  }

  /** The destructors as written: both string casts call `free(value_)`
      unconditionally, even when `value_` is `&fake_`. */
  function DestroyAsWritten(c: Cast, vm: Vm): (t: Teardown)
    ensures t.vm == WriteBack(c, vm)
    ensures t.freed <==> c.CharOutCast? || c.CharInCast? || c.VarArgsCast?
  {
    match c
    case CharOutCast(_, _, _, owned) => Teardown(WriteBack(c, vm), true, !owned)
    case CharInCast(_, owned) => Teardown(vm, true, !owned)
    case VarArgsCast(_) => Teardown(vm, true, false)
    case _ => Teardown(vm, false, false)
  }

  /** An empty output buffer or an empty input string leaves `value_` at
      `&fake_`, and the destructor as written hands that to `free`. */
  lemma EmptyStringFreesMember(v: Variant, s: Shape, vm: Vm, heap: Heap, params: seq<int>, idx: int, vm0: Vm)
    requires s.CharOut? || s.CharIn?
    requires Readable(s, params, idx)
    requires s.CharOut? ==> params[idx + 1] == 0
    requires s.CharIn? ==> StrLen(vm, GetAddr(vm, params[idx])) == 0
    ensures Construct(v, s, vm, heap, params, idx).Ok?
    ensures DestroyAsWritten(Construct(v, s, vm, heap, params, idx).value, vm0).badFree
  {
  }

  /** The destructors with the evident intent: write back as before, free
      only a buffer that `malloc` returned. */
  function Destroy(c: Cast, vm: Vm): (t: Teardown)
    ensures !t.badFree
    ensures t.vm == DestroyAsWritten(c, vm).vm
    ensures t.freed <==> (c.CharOutCast? && c.owned) || (c.CharInCast? && c.owned) || c.VarArgsCast?
  {
    match c
    case CharOutCast(_, _, _, owned) => Teardown(WriteBack(c, vm), owned, false)
    case CharInCast(_, owned) => Teardown(vm, owned, false)
    case VarArgsCast(_) => Teardown(vm, true, false)
    case _ => Teardown(vm, false, false)
  }

  /** For every cast that construction produces, the corrected destructor
      frees exactly the blocks construction allocated: a string cast frees
      iff it has a non-empty buffer. */
  lemma DestroyFreesWhatWasAllocated(v: Variant, s: Shape, vm: Vm, heap: Heap, params: seq<int>, idx: int, vm0: Vm)
    requires Readable(s, params, idx)
    requires Construct(v, s, vm, heap, params, idx).Ok?
    ensures var c := Construct(v, s, vm, heap, params, idx).value;
      && (s.CharOut? ==> (Destroy(c, vm0).freed <==> params[idx + 1] > 0))
      && (s.CharIn? ==> (Destroy(c, vm0).freed <==> StrLen(vm, GetAddr(vm, params[idx])) > 0))
      && !Destroy(c, vm0).badFree
  {
  }

  /** The conversion operator: what `Do` receives for a cast. */
  function ArgOf(c: Cast): Arg
  {
    match c
    case ValueCast(b) => Word(b)
    case PointerCast(p) => Address(p)
    case VarArgsCast(va) => VarList(va)
    case CharOutCast(_, _, buf, _) => OutText(buf)
    case CharInCast(text, _) => InText(text)
  }
}

=== FILE: loader.dfy ===
/** `AmxLoad`: registering every adapter with a newly loaded script, one
    native per `amx_Register` call, and installing every hook the first time
    any script loads. `amx_Register` and `sampgdk_FindNative` are oracles. */
module Loader {
  import opened Amx
  import Adapter

  /** An `AMX_NATIVE_INFO` entry: a name and entry point, or the `{0, 0}`
      sentinel that ends a list. */
  datatype Entry = Named(name: string, func: nat) | Sentinel

  /** `amx_Register`'s result for the n-th call of a load and the list it
      was given. */
  type Registrar = (nat, seq<Entry>) -> int

  /** `sampgdk_FindNative`: a native's address, 0 when there is none. */
  type Finder = string -> nat

  /** A `NativeHookBase`: its name, replacement, and the (target,
      replacement) pair its subhook was installed with, if it was. This is
      what loading sets up once per process; `Hooks.Hook` is the state a
      call then toggles (in or out, recursing or not), which loading never
      touches, so the two are kept as separate records. */
  datatype HookEntry = HookEntry(name: string, replacement: nat, installed: Option<(nat, nat)>)

  /** The process-wide state `AmxLoad` works on: the adapter list, the hook
      list (each `None` while nothing was constructed) and
      `gPluginNativesInit`. */
  datatype Plugin = Plugin(natives: Option<seq<Adapter.Native>>, hooks: Option<seq<HookEntry>>, init: bool)

  /** What one load did: its return value, the `amx_Register` calls in
      order, and the state afterwards. */
  datatype Load = Load(ret: int, calls: seq<seq<Entry>>, plugin: Plugin)

  /** The two-entry array passed for one adapter. */
  function EntryFor(n: Adapter.Native): seq<Entry>
  {
    [Named(n.name, n.native), Sentinel]
  }

  /** The registration loop from the `done`-th adapter on, with `ret` the
      result so far: one call per adapter, and the result of the last call
      overwrites every earlier one. */
  function RegisterFrom(list: seq<Adapter.Native>, done: nat, ret: int, reg: Registrar): (r: (int, seq<seq<Entry>>))
    requires done <= |list|
    ensures |r.1| == |list| - done
    ensures forall k :: 0 <= k < |r.1| ==> r.1[k] == EntryFor(list[done + k])
    ensures r.0 == if done == |list| then ret else reg(|list| - 1, EntryFor(list[|list| - 1]))
    decreases |list| - done
  {
    if done == |list| then (ret, [])
    else
      var call := EntryFor(list[done]);
      var rest := RegisterFrom(list, done + 1, reg(done, call), reg);
      (rest.0, [call] + rest.1)
  }

  /** The hook loop: a hook is installed on the native `find` reports, and
      a hook whose native is not found is skipped. */
  function InstallAll(hooks: seq<HookEntry>, find: Finder): (r: seq<HookEntry>)
    ensures |r| == |hooks|
    ensures forall k :: 0 <= k < |hooks| ==>
      && r[k].name == hooks[k].name && r[k].replacement == hooks[k].replacement
      && (find(hooks[k].name) != 0 ==> r[k].installed == Some((find(hooks[k].name), hooks[k].replacement)))
      && (find(hooks[k].name) == 0 ==> r[k].installed == hooks[k].installed)
  {
    seq(|hooks|, k requires 0 <= k < |hooks| =>
      var target := find(hooks[k].name);
      if target != 0 then hooks[k].(installed := Some((target, hooks[k].replacement))) else hooks[k])
  }

  /** `AmxLoad`. */
  function AmxLoad(p: Plugin, reg: Registrar, find: Finder): (l: Load)
    // One registration per adapter, in list order, each a named entry and the sentinel.
    ensures p.natives.None? ==> l.calls == []
    ensures p.natives.Some? ==> |l.calls| == |p.natives.value|
    ensures p.natives.Some? ==> forall k :: 0 <= k < |l.calls| ==>
      l.calls[k] == [Named(p.natives.value[k].name, p.natives.value[k].native), Sentinel]
    // The result is the last registration's, or 0 when there was none.
    ensures |l.calls| == 0 ==> l.ret == 0
    ensures |l.calls| > 0 ==> l.ret == reg(|l.calls| - 1, l.calls[|l.calls| - 1])
    // The adapter list is not changed, and the init flag is cleared.
    ensures l.plugin.natives == p.natives && !l.plugin.init
    // Hooks are only touched on the first load.
    ensures !p.init ==> l.plugin.hooks == p.hooks
    ensures p.init ==> (l.plugin.hooks.Some? <==> p.hooks.Some?)
    ensures p.init && p.hooks.Some? ==> l.plugin.hooks.value == InstallAll(p.hooks.value, find)
  {
    var (ret, calls) := if p.natives.None? then (0, []) else RegisterFrom(p.natives.value, 0, 0, reg);
    var hooks := if p.init && p.hooks.Some? then Some(InstallAll(p.hooks.value, find)) else p.hooks;
    Load(ret, calls, Plugin(p.natives, hooks, false))
  }

  /** Hooks are installed once per process: a second load, whatever the
      registrar and finder now say, leaves every hook as the first left it,
      while the adapters are registered again. */
  lemma SecondLoadInstallsNothing(p: Plugin, reg: Registrar, find: Finder, reg2: Registrar, find2: Finder)
    ensures var first := AmxLoad(p, reg, find);
      var second := AmxLoad(first.plugin, reg2, find2);
      && second.plugin == first.plugin
      && |second.calls| == |first.calls|
  {
  }

  /** A load with no adapters or an empty list registers nothing and
      returns 0. */
  lemma NothingToRegisterReturnsZero(p: Plugin, reg: Registrar, find: Finder)
    requires p.natives.None? || p.natives == Some([])
    ensures AmxLoad(p, reg, find).ret == 0 && AmxLoad(p, reg, find).calls == []
  {
  }
}

=== FILE: varargs.dfy ===
/** `varargs_s`: the variadic tail of a native call, captured as the host
    addresses of the remaining argument words. */
module VarArgs {
  import opened Amx

  /** `Count` and the slots of `Params` that have been filled. */
  datatype VarArgs = VarArgs(count: int, addrs: seq<int>)

  /** Bytes requested for `count` host pointers: `Count * sizeof (cell *)`,
      computed in the target's 32-bit `size_t`. */
  function BufferBytes(count: int): (b: nat)
    ensures b < Word
    ensures 0 <= count < Word / CellBytes ==> b == count * CellBytes
  {
    (count * CellBytes) % Word
  }

  /** `varargs_s(num)`: sets the count without looking at any stack and
      reserves an (unfilled) pointer buffer, or throws `bad_alloc`. */
  function Reserve(num: int, heap: Heap): (r: Result<VarArgs>)
    ensures r.Ok? <==> heap.grants(BufferBytes(num))
    ensures r.Ok? ==> r.value.count == num && r.value.addrs == []
    ensures r.Err? ==> r.error == BadAlloc
  {
    if heap.grants(BufferBytes(num)) then Ok(VarArgs(num, [])) else Err(BadAlloc)
  }

  /** `varargs_s(amx, params, idx)`: one translated address for every
      argument word from `idx` to the last declared one. */
  function Capture(vm: Vm, heap: Heap, params: seq<int>, idx: int): (r: Result<VarArgs>)
    requires WellFormed(params)
    requires 0 <= idx <= ArgWords(params) + 1
    ensures r.Ok? <==> heap.grants(BufferBytes(|params| - idx))
    ensures r.Err? ==> r.error == BadAlloc
    ensures r.Ok? ==> r.value.count == |params| - idx
    ensures r.Ok? ==> |r.value.addrs| == r.value.count
    ensures r.Ok? ==> forall i :: 0 <= i < r.value.count ==> r.value.addrs[i] == GetAddr(vm, params[idx + i])
  {
    var count := params[0] / CellBytes - idx + 1;
    if !heap.grants(BufferBytes(count)) then Err(BadAlloc)
    else Ok(VarArgs(count, seq(count, i requires 0 <= i < count => GetAddr(vm, params[idx + i]))))
  }

  /** The capturing constructor reserves exactly what `varargs_s(num)` would
      for the argument words it covers, fails exactly when that one would,
      and then fills every slot `Reserve` leaves empty. */
  lemma CaptureIsFilledReserve(vm: Vm, heap: Heap, params: seq<int>, idx: int)
    requires WellFormed(params)
    requires 0 <= idx <= ArgWords(params) + 1
    ensures var c := Capture(vm, heap, params, idx);
      var r := Reserve(|params| - idx, heap);
      && (c.Ok? <==> r.Ok?)
      && (c.Err? ==> c.error == r.error)
      && (c.Ok? ==> c.value.count == r.value.count && r.value.addrs == [] && |c.value.addrs| == c.value.count)
  {
  }

  /** The capture loop as the constructor runs it: `for (i = 0; i != Count; ++i)`. */
  method CaptureLoop(vm: Vm, heap: Heap, params: seq<int>, idx: int) returns (r: Result<VarArgs>)
    requires WellFormed(params)
    requires 0 <= idx <= ArgWords(params) + 1
    ensures r.Ok? <==> heap.grants(BufferBytes(|params| - idx))
    ensures r.Err? ==> r.error == BadAlloc
    ensures r.Ok? ==> r.value.count == |params| - idx && |r.value.addrs| == r.value.count
    ensures r.Ok? ==> forall i :: 0 <= i < r.value.count ==> r.value.addrs[i] == GetAddr(vm, params[idx + i])
  {
    var count := params[0] / CellBytes - idx + 1;
    if !heap.grants(BufferBytes(count)) {
      return Err(BadAlloc);
    }
    var addrs: seq<int> := [];
    var i := 0;
    while i != count
      invariant 0 <= i <= count
      invariant |addrs| == i
      invariant forall j :: 0 <= j < i ==> addrs[j] == GetAddr(vm, params[idx + j])
    {
      addrs := addrs + [GetAddr(vm, params[idx + i])];
      i := i + 1;
    }
    return Ok(VarArgs(count, addrs));
  }
}
